=== FILE: README.md ===
# EventBuka client state, modelled in Dafny

EventBuka is an event-ticketing web front end. This project models the state
logic of six of its React components as pure Dafny functions over immutable
data, and proves properties about them:

- **SeatSelection** (`seats.dfy`): the seat modal. It has three priced
  sections (VIP 25 000, Regular 15 000, Table 40 000). Row seats are
  generated as `PREFIX-<row letter>-<number>` and table seats as
  `PREFIX-<table>-<position letter>`. Two fixed booked-id sets decide which
  seats are booked. A click toggles an id in the ordered selection. The
  total charges each id by its prefix. A seat's status is booked, selected
  or available, and the tabs pick the visible section.
- **EventDetail** (`ticket_cart.dfy`): the ticket counter of the event page.
  The `selectedTickets` object is a sequence of key/quantity entries kept in
  insertion order. "-" and "+" are clamped to `0..available`. The total
  prices each entry by the ticket type whose id string matches its key. The
  booking summary lists the entries with a positive quantity.
- **BecomeVendor** (`vendor.dfy`): the vendor application form and its
  four-step wizard. This covers the field handlers, the event-type toggle,
  and the Previous/Next/submit navigation. The browser's `required` check
  on the step-3 submit is part of the model, and so is the progress bar.
- **OrganizerDashboard** (`organizer.dfy`): the vendor's dashboard. It
  computes the stat cards and the recent-activity feed, and lists the
  upcoming events. It also shows per-event sold counts, the top five events
  by revenue, the role gate and event deletion.
- **AdminDashboard** (`admin.dfy`): the stat cards and the user actions
  (verify, suspend, delete) and event actions (approve, reject, delete).
  These are modelled as updates of the tables by id. The model also covers
  which buttons a row offers and the admin gate.
- **ResponsiveNavbar** (`navbar.dfy`): the "Dashboard" link target for the
  signed-in user and the search form's `/events?…` navigation.

Shared pieces:

- `lists.dfy` holds the sequence helpers: counting, toggling, filtering, a
  stable descending insertion sort, and `Take` (JavaScript's `slice(0, n)`).
- `text.dfy` holds decimal rendering of naturals, with its injectivity, and
  `startsWith`.
- `session.dfy` holds the signed-in user: an id and a role string.

Backend queries are not executed. Their results are parameters: a failed
query is `None`, the current time is an integer `now`, and `confirm()`
answers are booleans. The form encoder used by `URLSearchParams` is a
function parameter `encode`.

## Model

| member | source | states |
|---|---|---|
| SeatSelection.RowSeatIdInjective | src/components/SeatSelection.tsx:38-41 | Within one prefix, two row seat ids are equal exactly when their row and seat number are equal. |
| SeatSelection.GenerateSeats | src/components/SeatSelection.tsx:34-52 | `generateSeats`: the nested row/seat loops; size, order, well-formedness and distinct ids are stated by GenerateSeatsLength, GenerateSeatsAt, GenerateSeatsWellFormed and GenerateSeatsDistinctIds. |
| SeatSelection.GenerateSeatsLength | src/components/SeatSelection.tsx:34-52 | The generator yields exactly rows × seatsPerRow seats. |
| SeatSelection.GenerateSeatsWellFormed | src/components/SeatSelection.tsx:38-49 | Every generated seat has a row letter below 'A'+rows and a number in 1..seatsPerRow. Its id spells them out, it is booked iff the row booked set lists the id, and it is selected iff the selection contains it. |
| SeatSelection.GenerateSeatsRowAt | src/components/SeatSelection.tsx:38-49 | Row r's seat s comes right after all seats of rows 0..r − 1, at offset s − 1. |
| SeatSelection.GenerateSeatsAt | src/components/SeatSelection.tsx:38-49 | Seats come out row-major: row r, seat s is at index r·seatsPerRow + s − 1. |
| SeatSelection.GenerateSeatsDistinctIds | src/components/SeatSelection.tsx:38-49 | No two generated row seats share an id. |
| SeatSelection.TableSeatIdInjective | src/components/SeatSelection.tsx:58-61 | Within one prefix, two table seat ids are equal exactly when their table and position are equal. |
| SeatSelection.GenerateTableSeats | src/components/SeatSelection.tsx:54-72 | `generateTableSeats`: the nested table/position loops; stated by GenerateTableSeatsLength, GenerateTableSeatsAt, GenerateTableSeatsWellFormed and GenerateTableSeatsDistinctIds. |
| SeatSelection.GenerateTableSeatsLength | src/components/SeatSelection.tsx:54-72 | The generator yields exactly tables × seatsPerTable seats. |
| SeatSelection.GenerateTableSeatsWellFormed | src/components/SeatSelection.tsx:58-69 | Every generated seat has a table in 1..tables and a position letter below 'A'+seatsPerTable. Its id spells them out, and its booked and selected flags follow the table booked set and the selection. |
| SeatSelection.GenerateTableSeatsTableAt | src/components/SeatSelection.tsx:58-69 | Table t's position p comes right after all seats of tables 1..t − 1, at offset p. |
| SeatSelection.GenerateTableSeatsAt | src/components/SeatSelection.tsx:58-69 | Table t, position p is at index (t − 1)·seatsPerTable + p. |
| SeatSelection.GenerateTableSeatsDistinctIds | src/components/SeatSelection.tsx:58-69 | No two generated table seats share an id. |
| SeatSelection.LayoutBookedSeats | src/components/SeatSelection.tsx:13-36 | The sections hold 50, 200 and 32 seats. The booked seats are exactly VIP-A-3/4, REG-C-7/8 and TBL-1-A, TBL-1-B and TBL-3-C; the row set's TBL-1-A names no row seat. |
| SeatSelection.VipBooked | src/components/SeatSelection.tsx:14-18 | The booked VIP seats are exactly VIP-A-3 and VIP-A-4. |
| SeatSelection.RegularBooked | src/components/SeatSelection.tsx:20-24 | The booked regular seats are exactly REG-C-7 and REG-C-8. |
| SeatSelection.TablesBooked | src/components/SeatSelection.tsx:26-30 | The booked table seats are exactly TBL-1-A, TBL-1-B and TBL-3-C. |
| SeatSelection.LayoutBookedFlags | src/components/SeatSelection.tsx:13-72 | Every layout seat is booked iff its id is in either booked set, and its id starts with its section's prefix. |
| SeatSelection.CalculateTotal | src/components/SeatSelection.tsx:84-90 | The total is 25 000 per VIP-prefixed id, 15 000 per REG-prefixed id and 40 000 per other id. It is 0 iff the selection is empty. |
| SeatSelection.CalculateTotalAdditive | src/components/SeatSelection.tsx:84-90 | The total of two selections laid end to end is the sum of their totals. |
| SeatSelection.LayoutPricesAgree | src/components/SeatSelection.tsx:13-31 | Every seat of a section is charged at that section's price by the prefix rule. |
| SeatSelection.GetSeatStatus | src/components/SeatSelection.tsx:92-96 | Booked iff the seat is booked; selected iff it is unbooked and selected; available otherwise. |
| SeatSelection.HandleSeatClick | src/components/SeatSelection.tsx:74-81 | A booked seat leaves the selection unchanged. Otherwise the id's membership flips and an absent id is appended at the end. Other ids keep their multiplicity, and a duplicate-free selection stays duplicate-free. |
| SeatSelection.SectionOf | src/components/SeatSelection.tsx:13-32 | The three sections with their names, prices and generated seats; their sizes, booked seats and prices are stated by LayoutBookedSeats and LayoutPricesAgree. |
| SeatSelection.SelectSection | src/components/SeatSelection.tsx:131-134 | A tab click changes only the visible section. |
| SeatSelection.SeatClickTwice | src/components/SeatSelection.tsx:74-81 | Two clicks on an absent, unbooked seat restore the exact selection. |
| SeatSelection.SelectionInvariant | src/components/SeatSelection.tsx:74-81 | Under any clicks on seats whose booked flags follow the booked sets, the selection stays duplicate-free and never holds a booked id. |
| SeatSelection.ClickMembership | src/components/SeatSelection.tsx:74-81 | One click flips the clicked id's membership if the seat is unbooked, and no other id's. |
| SeatSelection.ClickParity | src/components/SeatSelection.tsx:74-81 | After any clicks, an id is selected iff its initial membership differs from the parity of its unbooked clicks. |
| SeatSelection.ClickParityFromEmpty | src/components/SeatSelection.tsx:74-81 | From an empty selection, an id is selected iff it was clicked an odd number of times while unbooked. |
| Text.NatToStringInjective | src/components/SeatSelection.tsx:41 | Decimal rendering of seat numbers is injective. |
| Text.DigitsValueOfNatToString | src/components/SeatSelection.tsx:41 | Reading the rendered digits back gives the number. |
| Lists.Toggle | src/pages/BecomeVendor.tsx:73-75 | Includes-then-filter-else-append flips the element's membership and keeps other counts. It appends when the element is absent and preserves duplicate-freedom. |
| Lists.ToggleTwice | src/components/SeatSelection.tsx:77-81 | Toggling twice restores membership, and the exact list when the element was absent. |
| Lists.Filter | src/pages/OrganizerDashboard.tsx:74 | `Array.prototype.filter`: the result holds exactly the elements that pass, and is no longer than the input. |
| Lists.FilterMultiset | src/pages/AdminDashboard.tsx:78 | Filtering keeps each passing element with its multiplicity and drops every failing one. |
| Lists.TakeFilterIsPrefixFilter | src/pages/OrganizerDashboard.tsx:250 | `filter(p).slice(0, n)` equals the filter of some prefix of the input: no earlier passing element is skipped. |
| Lists.Take | src/pages/OrganizerDashboard.tsx:88-99 | `slice(0, n)`; stated by TakeSpec. |
| Lists.TakeSpec | src/pages/OrganizerDashboard.tsx:250 | `slice(0, n)` keeps min(n, length) elements, the first ones, unchanged and in order. |
| Lists.SortDesc | src/pages/OrganizerDashboard.tsx:99 | The descending sort returns a permutation of its input ordered by non-increasing key. |
| TicketCart.EventTicketTypesDistinct | src/pages/EventDetail.tsx:25-29 | The three ticket types have distinct ids. |
| TicketCart.LookupSpec | src/pages/EventDetail.tsx:10 | Reading a key finds nothing iff no entry has it, and otherwise an entry's quantity. |
| TicketCart.SetQuantity | src/pages/EventDetail.tsx:37-42 | After the update, the key reads as q and every other key reads as before. The length grows by one exactly when the key was new, and then the entry is appended. |
| TicketCart.SetQuantityEntries | src/pages/EventDetail.tsx:37-42 | Each resulting entry is either the old one or the new (key, q), and keys keep their positions. |
| TicketCart.SetQuantityUnique | src/pages/EventDetail.tsx:37-42 | The update never duplicates a key. |
| TicketCart.FindTicketSpec | src/pages/EventDetail.tsx:46 | `find` returns a listed type whose id string is the key, or nothing iff none has it. |
| TicketCart.FindListed | src/pages/EventDetail.tsx:46 | With distinct ids, the listed type's own key finds that type. |
| TicketCart.FindListedAt | src/pages/EventDetail.tsx:46 | With distinct ids, the key of the i-th type finds the i-th type. |
| TicketCart.CalculateTotalBounds | src/pages/EventDetail.tsx:44-49 | The empty selection costs 0 and non-negative quantities give a non-negative total. Keys that match no type add nothing. |
| TicketCart.TotalAfterSetQuantity | src/pages/EventDetail.tsx:37-49 | Setting one quantity moves the total by exactly the difference of that key's line amounts. |
| TicketCart.TypeTotalCons | src/pages/EventDetail.tsx:44-49 | A new key in front adds its line amount to the per-type reference total. |
| TicketCart.TotalIsPerTypeSum | src/pages/EventDetail.tsx:44-49 | With unique keys, the total equals Σ over ticket types of price × chosen quantity. |
| TicketCart.TypeTotalEmpty | src/pages/EventDetail.tsx:44-49 | The per-type reference total of the empty selection is 0. |
| TicketCart.PressClamps | src/pages/EventDetail.tsx:214-221 | "-" sets the quantity to max(0, q − 1) and "+" to min(available, q + 1). No other key changes. |
| TicketCart.PlusTotal | src/pages/EventDetail.tsx:221 | "+" on a listed type adds its price to the total below stock, and nothing at stock. |
| TicketCart.MinusTotal | src/pages/EventDetail.tsx:214 | "-" on a listed type takes its price off the total above 0, and nothing at 0. |
| TicketCart.EmptyWithinStock | src/pages/EventDetail.tsx:10 | The initial empty selection is within stock. |
| TicketCart.PressWithinStock | src/pages/EventDetail.tsx:214-221 | One press keeps every quantity within 0..available. |
| TicketCart.PressAllWithinStock | src/pages/EventDetail.tsx:214-221 | Any sequence of presses on listed types keeps every quantity within 0..available. |
| TicketCart.RepeatedPlus | src/pages/EventDetail.tsx:221 | n presses of "+" move q to min(available, q + n). |
| TicketCart.RepeatedMinus | src/pages/EventDetail.tsx:214 | n presses of "-" move q to max(0, q − n). |
| TicketCart.CalculateTotal | src/pages/EventDetail.tsx:44-49 | `calculateTotal`: the sum of price × quantity over the entries whose key names a ticket type. Its contract is stated by CalculateTotalBounds, TotalAfterSetQuantity and TotalIsPerTypeSum. |
| TicketCart.Press | src/pages/EventDetail.tsx:214-221 | One press of "-" or "+": `handleTicketChange` with the clamped quantity; stated by PressClamps, PlusTotal and MinusTotal. |
| TicketCart.SummaryLines | src/pages/EventDetail.tsx:367-386 | The summary lines in cart order; stated by SummaryLinesSpec and SummaryMatchesTotal. |
| TicketCart.SummaryMatchesTotal | src/pages/EventDetail.tsx:367-391 | The summary's line amounts add up to the displayed total. There is at most one line per entry and only positive quantities appear. |
| TicketCart.SummaryLinesSpec | src/pages/EventDetail.tsx:367-386 | Every line names a listed ticket type and shows its price × the line's quantity. Every entry with a positive quantity whose key names a ticket type has its line. |
| TicketCart.SummaryShownIff | src/pages/EventDetail.tsx:367 | The summary is shown iff some entry has a positive quantity. |
| VendorWizard.HandleInputChange | src/pages/BecomeVendor.tsx:62-68 | The named field takes the value and every other field, the event types and the bank details are unchanged. |
| VendorWizard.HandleBankDetailsChange | src/pages/BecomeVendor.tsx:79-88 | The named bank field takes the value and everything else is unchanged. |
| VendorWizard.HandleEventTypeToggle | src/pages/BecomeVendor.tsx:70-77 | The chosen type's membership flips, other types keep theirs, and an absent type is appended. Duplicate-freedom is kept and the other fields are unchanged. |
| VendorWizard.EventTypeToggleTwice | src/pages/BecomeVendor.tsx:70-77 | Toggling twice restores membership, and the exact form when the type was absent. |
| VendorWizard.HandleSubmit | src/pages/BecomeVendor.tsx:90-95 | Submitting keeps the form and reaches step 4 iff the browser's required check passes: account name, number and bank name non-empty, and terms checked. |
| VendorWizard.Apply | src/pages/BecomeVendor.tsx:163-443 | One user action on the wizard: Previous, Next or submit, and the inputs of the visible step. Stated by ApplyStep, RunStep and CompletedRunHasBankDetails. |
| VendorWizard.ApplyStep | src/pages/BecomeVendor.tsx:423-443 | The step stays in 1..4 and moves by at most one. Previous gives max(1, step − 1) and Next below 3 gives min(3, step + 1). Step 4 is entered only by a valid submit on step 3 and then accepts nothing. |
| VendorWizard.RunStep | src/pages/BecomeVendor.tsx:423-443 | Over any run, the step stays in 1..4, a run ending on step 4 has the required bank fields, and step 4 is final. |
| VendorWizard.CompletedRunHasBankDetails | src/pages/BecomeVendor.tsx:281-330 | From the initial state, step 4 is reached only with account name, number and bank name filled. |
| VendorWizard.SubmitIgnoresBusinessFields | src/pages/BecomeVendor.tsx:163-240 | A concrete run reaches step 4 with the business name and email still empty: step 1's required inputs are never checked. |
| VendorWizard.IndicatorCounts | src/pages/BecomeVendor.tsx:136-157 | A step is drawn done iff it precedes the current one and active iff it is the current one. The number drawn done is min(n, current − 1), and every step in 1..4 has a title. |
| OrganizerDashboard.UpcomingEvents | src/pages/OrganizerDashboard.tsx:74 | The upcoming events are exactly the fetched events starting after now. |
| OrganizerDashboard.UpcomingEventsCount | src/pages/OrganizerDashboard.tsx:74 | The filtered list has exactly one element per fetched row that starts after now. |
| OrganizerDashboard.RevenueIsSum | src/pages/OrganizerDashboard.tsx:73 | The revenue reduce is the plain sum of the bookings' amounts. |
| OrganizerDashboard.ComputeStats | src/pages/OrganizerDashboard.tsx:71-74 | With rows, the cards are the number of events, the number of bookings, the sum of booking amounts and the number of rows starting after now. A failed query gives zeros. Upcoming ≤ total, and upcoming is 0 iff no fetched event starts after now. |
| OrganizerDashboard.RevenueAppend | src/pages/OrganizerDashboard.tsx:73 | Revenue adds up over concatenated bookings and is non-negative for non-negative amounts. |
| OrganizerDashboard.BookingActivities | src/pages/OrganizerDashboard.tsx:88-93 | Each booking gives, in order, one booking activity. |
| OrganizerDashboard.EventActivities | src/pages/OrganizerDashboard.tsx:94-98 | Each event gives, in order, one event activity. |
| OrganizerDashboard.RecentActivity | src/pages/OrganizerDashboard.tsx:87-99 | The feed: candidates sorted newest first, cut to ten; stated by RecentActivityShape and ShownActivityIsNewest. |
| OrganizerDashboard.RecentActivityShape | src/pages/OrganizerDashboard.tsx:87-99 | The feed holds exactly the first 5 bookings and first 3 events, so at most 8 entries and the cut to 10 drops nothing. It is newest first. |
| OrganizerDashboard.ShownActivityIsNewest | src/pages/OrganizerDashboard.tsx:274 | No feed entry left out of the five shown is newer than a shown one. |
| OrganizerDashboard.UpcomingList | src/pages/OrganizerDashboard.tsx:250 | The overview's upcoming list, the first five upcoming events; stated by UpcomingListSpec. |
| OrganizerDashboard.UpcomingListSpec | src/pages/OrganizerDashboard.tsx:250 | The overview lists min(5, upcoming count) events, each fetched and upcoming. The list is the upcoming events of a prefix of the fetched list, so no earlier upcoming event is skipped. |
| OrganizerDashboard.SoldCount | src/pages/OrganizerDashboard.tsx:534 | Tickets sold for an event: the sum of its rows' quantity sold, 0 without ticket rows; stated by SoldAndRevenueAppend. |
| OrganizerDashboard.EventRevenue | src/pages/OrganizerDashboard.tsx:550-556 | An event's revenue: the sum of quantity sold × price over its rows, 0 without ticket rows; stated by SoldAndRevenueAppend and used as the order of TopPerformersSpec. |
| OrganizerDashboard.SoldAndRevenueAppend | src/pages/OrganizerDashboard.tsx:403 | Each ticket row adds its quantity sold to the sold count and quantity × price to the revenue. Non-negative rows give non-negative totals. |
| OrganizerDashboard.TopPerformers | src/pages/OrganizerDashboard.tsx:548-554 | Events sorted by revenue, highest first, cut to five; stated by TopPerformersSpec. |
| OrganizerDashboard.TopPerformersSpec | src/pages/OrganizerDashboard.tsx:548-556 | The panel shows min(5, n) of the organizer's events ordered by revenue, and no event left out earned more than one shown. |
| OrganizerDashboard.SettledView | src/pages/OrganizerDashboard.tsx:37-41 | Once fetching settles, the dashboard shows iff the user is a vendor, and access is denied iff the user is neither vendor nor organizer. |
| OrganizerDashboard.OrganizerStaysLoading | src/pages/OrganizerDashboard.tsx:120-134 | An organizer is admitted but never fetches, so the spinner stays. |
| OrganizerDashboard.DeleteEvent | src/pages/OrganizerDashboard.tsx:109-118 | Declined, nothing changes. Confirmed, the list holds exactly the old events with another id, each with its multiplicity. |
| AdminDashboard.PendingCount | src/pages/AdminDashboard.tsx:78 | Reference count of pending rows; it never exceeds the rows counted. |
| AdminDashboard.PendingCountIsFilterLength | src/pages/AdminDashboard.tsx:78 | The source's `filter(pending).length` equals the reference count, which is 0 iff no row is pending. |
| AdminDashboard.RevenueIsCompletedSum | src/pages/AdminDashboard.tsx:61-77 | Summing the completed rows equals adding each transaction's amount only when completed. With no completed transaction the revenue is 0. |
| AdminDashboard.ComputeStats | src/pages/AdminDashboard.tsx:77-86 | Revenue is the completed revenue. Pending approvals are the pending rows among the first 100 fetched, so at most the number of fetched rows and at most 100, and over the whole table when it has at most 100 rows. Each count card shows its count, or 0 when missing. |
| AdminDashboard.SetVerified | src/pages/AdminDashboard.tsx:102-104 | Every row with the id gets the new flag. All other rows and fields are unchanged. |
| AdminDashboard.DeleteUser | src/pages/AdminDashboard.tsx:106 | The result holds exactly the rows with another id, with their multiplicities. |
| AdminDashboard.ApplyUserAction | src/pages/AdminDashboard.tsx:99-107 | `handleUserAction` on the users table; stated by StatusButtonFlips, PendingAfterSetVerified and PendingAfterDelete. |
| AdminDashboard.StatusButtonAction | src/pages/AdminDashboard.tsx:383 | The status button suspends a verified user and verifies any other; stated by StatusButtonFlips. |
| AdminDashboard.StatusButtonFlips | src/pages/AdminDashboard.tsx:383 | A status-button press flips that user's verification and leaves rows with other ids alone. A second press restores the row. |
| AdminDashboard.PendingAfterSetVerified | src/pages/AdminDashboard.tsx:99-104 | Verifying an id removes exactly its pending rows from the count, and suspending it adds its verified non-user rows. |
| AdminDashboard.PendingAfterDelete | src/pages/AdminDashboard.tsx:105-106 | Deleting an id removes exactly its pending rows from the count. |
| AdminDashboard.SetStatus | src/pages/AdminDashboard.tsx:116-119 | Every event with the id gets the status and others are unchanged. |
| AdminDashboard.DeleteEvent | src/pages/AdminDashboard.tsx:120-121 | The result holds exactly the events with another id, with their multiplicities. |
| AdminDashboard.EventActionsOffered | src/pages/AdminDashboard.tsx:478-500 | Approve is offered iff the event is a draft. Reject and delete are always offered, and there are no duplicates. |
| AdminDashboard.ApplyEventAction | src/pages/AdminDashboard.tsx:114-122 | `handleEventAction` on the events table; stated by OfferedActionEffect. |
| AdminDashboard.OfferedActionEffect | src/pages/AdminDashboard.tsx:114-127 | Approve publishes the event, reject cancels it and delete removes every row with its id. Other ids are untouched. |
| AdminDashboard.PageView | src/pages/AdminDashboard.tsx:129-148 | Access is denied iff the user fails the render guard (not an admin). The dashboard shows iff the effect started the fetch and it has settled. |
| AdminDashboard.GuardsAgree | src/pages/AdminDashboard.tsx:39-43 | The fetch guard and the render guard agree. A user who triggers no fetch sees access denied for any fetch state, and exactly the users who trigger the fetch get past the gate. |
| Navbar.DashboardRoute | src/components/ResponsiveNavbar.tsx:37-44 | "/admin" iff an admin, "/organizer" iff a vendor, "/dashboard" otherwise, including signed out. |
| Navbar.DashboardRouteAdmits | src/components/ResponsiveNavbar.tsx:37-44 | The link is one of three paths. The role that "/admin" names passes the admin page's gate, and the role that "/organizer" names passes the organizer page's gate and has its data loaded. It does not claim the paths are routed. |
| Navbar.SearchParams | src/components/ResponsiveNavbar.tsx:30-32 | The parameters set by the two conditional `set` calls; stated by SearchParamsSpec. |
| Navbar.Serialize | src/components/ResponsiveNavbar.tsx:33 | `params.toString()`; stated by SerializeBoth and the SearchUrl lemmas. |
| Navbar.SearchParamsSpec | src/components/ResponsiveNavbar.tsx:30-32 | A query becomes a parameter iff non-empty, with only `search` and `location` names and search first. |
| Navbar.HandleSearch | src/components/ResponsiveNavbar.tsx:28-35 | The target starts with "/events?", the mobile menu closes and the queries are kept. |
| Navbar.SerializeBoth | src/components/ResponsiveNavbar.tsx:30-33 | With both queries, the parameter string is `search=…&location=…`. |
| Navbar.SearchUrlOneQuery | src/components/ResponsiveNavbar.tsx:28-33 | With no query the target is "/events?"; with one, only that pair follows. |
| Navbar.SearchUrlBothQueries | src/components/ResponsiveNavbar.tsx:28-33 | With both queries the target is "/events?search=…&location=…". |

## Left out

- I/O and the backend: the Supabase queries, their ordering (`order('created_at')`) and the refetch after an action are modelled as given rows. A failed row query is treated like an empty table.
- Row limits on the admin events, bookings and transactions lists (50/50/100) are not modelled. Only the users limit of 100 enters a statistic.
- URL encoding: `URLSearchParams` form-encodes values; the encoder is a function parameter `encode`.
- JavaScript orders integer-like object keys numerically in `Object.entries`. The cart keeps insertion order instead, which changes only the order of summary lines, not the total.
- The top-performers panel sorts the `events` state in place (`events.sort`), which also reorders the lists rendered after it. The model sorts a copy.
- Lists.SortDesc: stability is not stated; only order and permutation are proven.
- Dates are integer timestamps and `new Date()` is the parameter `now`. Date parsing is not modelled.
- The vendor form's document slots are never written by the page, so they are not represented. The Stellar address is kept in the bank details, but the page has no input for it, so no action writes it.
- Money is an unbounded integer. The dashboards sum `Number(amount)` as JavaScript numbers, so fractional amounts, floating-point rounding and the `NaN || 0` fallback (one non-numeric amount turns the whole revenue into 0) are not modelled.
- The terms checkbox is uncontrolled, so its state is the `termsChecked` parameter of `Next`.
- The seat modal's "held for 15 minutes" note, `onSeatSelect`/`onClose` callbacks and colours are presentation only.
- Navbar.DashboardRoute: the application's router (src/App.tsx:35-44) routes neither "/admin" nor "/organizer", and the navigation bar it mounts is `components/Navbar`, not `ResponsiveNavbar`. So in the running program these links match no route and neither dashboard page is reachable. The model states only which path the link names and which page gate that role passes; routing is not modelled.
- ResponsiveNavbar's `handleAuthClick`, `handleLogout`, menus and links are UI toggles and navigation with no state logic beyond a boolean flip.
- Tabs of the dashboards, hover styles, and currency formatting (`toLocaleString`) are presentation.
- `String.fromCharCode(65 + k)` is modelled for codes below the surrogate range (at most 0xD7FF), which covers every generated row and position letter.

=== FILE: admin.dfy ===
/** The admin dashboard: revenue and pending-approval statistics over the
    fetched rows, the user and event actions as transitions of the users and
    events tables (every row whose id matches is updated or deleted, as an
    `eq('id', …)` filter does), which buttons a row offers, and the role gate. */
module AdminDashboard {
  import opened Lists
  import opened Session

  datatype UserRow = UserRow(id: string, role: string, isVerified: bool)

  datatype EventRow = EventRow(id: string, status: string)

  datatype Transaction = Transaction(amount: int, status: string)

  /** The number of user rows the page fetches (`limit(100)`), newest first. */
  const UserFetchLimit := 100

  /** A user counts as awaiting approval when unverified and not a plain user. */
  predicate IsPending(u: UserRow) {
    !u.isVerified && u.role != "user"
  }

  /** Reference count of the rows awaiting approval. */
  function PendingCount(users: seq<UserRow>): (n: nat)
    ensures n <= |users|
  {
    if users == [] then 0 else (if IsPending(users[0]) then 1 else 0) + PendingCount(users[1..])
  }

  /** `filter(u => !u.is_verified && u.role !== 'user').length` is the
      reference count, which is 0 exactly when no row is pending. */
  lemma {:induction false} PendingCountIsFilterLength(users: seq<UserRow>)
    ensures PendingCount(users) == |Filter(users, IsPending)|
    ensures PendingCount(users) == 0 <==> forall u :: u in users ==> !IsPending(u)
  {
    if users != [] {
      PendingCountIsFilterLength(users[1..]);
      assert users[0] in users;
      assert forall u :: u in users[1..] ==> u in users;
    }
  }

  /** The revenue query's rows: the transactions whose status is `completed`. */
  function CompletedTransactions(table: seq<Transaction>): seq<Transaction> {
    Filter(table, (t: Transaction) => t.status == "completed")
  }

  function SumAmounts(ts: seq<Transaction>): int {
    if ts == [] then 0 else ts[0].amount + SumAmounts(ts[1..])
  }

  /** Reference revenue: every transaction adds its amount when completed and
      nothing otherwise. */
  function CompletedRevenue(table: seq<Transaction>): int {
    if table == [] then 0
    else (if table[0].status == "completed" then table[0].amount else 0) + CompletedRevenue(table[1..])
  }

  /** Summing the completed rows is the same as counting each transaction's
      amount only when it is completed; there is none when no transaction is
      completed. */
  lemma {:induction false} RevenueIsCompletedSum(table: seq<Transaction>)
    ensures SumAmounts(CompletedTransactions(table)) == CompletedRevenue(table)
    ensures (forall i :: 0 <= i < |table| ==> table[i].status != "completed") ==> CompletedRevenue(table) == 0
  {
    if table != [] {
      assert forall i :: 0 <= i < |table[1..]| ==> table[1..][i] == table[i + 1];
      RevenueIsCompletedSum(table[1..]);
    }
  }

  datatype AdminStats = AdminStats(
    totalUsers: nat, totalEvents: nat, totalRevenue: int, totalBookings: nat, pendingApprovals: nat)

  function CountOrZero(count: Option<nat>): nat {
    match count
    case None => 0
    case Some(n) => n
  }

  /** The stat cards: the three counts (`count || 0`), the completed revenue
      and the pending users among the fetched user rows. */
  function ComputeStats(
    usersCount: Option<nat>, eventsCount: Option<nat>, bookingsCount: Option<nat>,
    transactions: seq<Transaction>, userTable: seq<UserRow>): (s: AdminStats)
    ensures s.totalRevenue == CompletedRevenue(transactions)
    ensures s.pendingApprovals == PendingCount(Take(userTable, UserFetchLimit))
    ensures s.pendingApprovals <= |Take(userTable, UserFetchLimit)| <= UserFetchLimit
    ensures |userTable| <= UserFetchLimit ==> s.pendingApprovals == PendingCount(userTable)
    ensures usersCount.None? ==> s.totalUsers == 0
    ensures usersCount.Some? ==> s.totalUsers == usersCount.value
    ensures eventsCount.None? ==> s.totalEvents == 0
    ensures eventsCount.Some? ==> s.totalEvents == eventsCount.value
    ensures bookingsCount.None? ==> s.totalBookings == 0
    ensures bookingsCount.Some? ==> s.totalBookings == bookingsCount.value
  {
    RevenueIsCompletedSum(transactions);
    var fetched := Take(userTable, UserFetchLimit);
    PendingCountIsFilterLength(fetched);
    AdminStats(
      CountOrZero(usersCount), CountOrZero(eventsCount),
      SumAmounts(CompletedTransactions(transactions)),
      CountOrZero(bookingsCount), |Filter(fetched, IsPending)|)
  }

  /** `update({ is_verified: v }).eq('id', id)`. */
  function SetVerified(users: seq<UserRow>, id: string, v: bool): (r: seq<UserRow>)
    ensures |r| == |users|
    ensures forall i :: 0 <= i < |r| ==> r[i].id == users[i].id && r[i].role == users[i].role
    ensures forall i :: 0 <= i < |r| ==> r[i].isVerified == if users[i].id == id then v else users[i].isVerified
  {
    if users == [] then []
    else
      var u := users[0];
      var rest := SetVerified(users[1..], id, v);
      var r := [if u.id == id then u.(isVerified := v) else u] + rest;
      assert forall i :: 1 <= i < |r| ==> r[i] == rest[i - 1];
      r
  }

  /** `delete().eq('id', id)`: every row with that id goes, others stay in order. */
  function DeleteUser(users: seq<UserRow>, id: string): (r: seq<UserRow>)
    ensures forall u: UserRow :: u in r <==> u in users && u.id != id
    ensures forall u: UserRow :: u.id != id ==> Count(r, u) == Count(users, u)
    ensures |r| <= |users|
  {
    if users == [] then []
    else if users[0].id == id then DeleteUser(users[1..], id)
    else [users[0]] + DeleteUser(users[1..], id)
  }

  datatype UserAction = Verify | Suspend | DeleteUserAction

  /** `handleUserAction` applied to the users table. */
  function ApplyUserAction(users: seq<UserRow>, id: string, action: UserAction): seq<UserRow> {
    match action
    case Verify => SetVerified(users, id, true)
    case Suspend => SetVerified(users, id, false)
    case DeleteUserAction => DeleteUser(users, id)
  }

  /** The status button of a row: suspend a verified user, verify any other. */
  function StatusButtonAction(u: UserRow): UserAction {
    if u.isVerified then Suspend else Verify
  }

  /** One press of a row's status button flips that user's verification and
      leaves every row with another id as it was; two presses restore it. */
  lemma StatusButtonFlips(users: seq<UserRow>, i: nat)
    requires i < |users|
    ensures var r := ApplyUserAction(users, users[i].id, StatusButtonAction(users[i]));
      |r| == |users| && r[i].isVerified == !users[i].isVerified
      && forall j :: 0 <= j < |users| && users[j].id != users[i].id ==> r[j] == users[j]
    ensures var r := ApplyUserAction(users, users[i].id, StatusButtonAction(users[i]));
      ApplyUserAction(r, r[i].id, StatusButtonAction(r[i]))[i] == users[i]
  {
  }

  /** Rows with the id that are awaiting approval. */
  function PendingWithId(users: seq<UserRow>, id: string): nat {
    if users == [] then 0
    else (if users[0].id == id && IsPending(users[0]) then 1 else 0) + PendingWithId(users[1..], id)
  }

  /** Rows with the id that would await approval if unverified. */
  function ApprovableWithId(users: seq<UserRow>, id: string): nat {
    if users == [] then 0
    else
      var approvable := users[0].id == id && users[0].isVerified && users[0].role != "user";
      (if approvable then 1 else 0) + ApprovableWithId(users[1..], id)
  }

  /** Verifying an id removes exactly its pending rows from the count;
      suspending it adds its verified non-user rows. */
  lemma {:induction false} PendingAfterSetVerified(users: seq<UserRow>, id: string)
    ensures PendingCount(ApplyUserAction(users, id, Verify)) == PendingCount(users) - PendingWithId(users, id)
    ensures PendingCount(ApplyUserAction(users, id, Suspend)) == PendingCount(users) + ApprovableWithId(users, id)
  {
    if users != [] {
      PendingAfterSetVerified(users[1..], id);
      assert SetVerified(users, id, true)[1..] == SetVerified(users[1..], id, true);
      assert SetVerified(users, id, false)[1..] == SetVerified(users[1..], id, false);
    }
  }

  /** Deleting an id removes exactly its pending rows from the count. */
  lemma {:induction false} PendingAfterDelete(users: seq<UserRow>, id: string)
    ensures PendingCount(ApplyUserAction(users, id, DeleteUserAction)) == PendingCount(users) - PendingWithId(users, id)
  {
    if users != [] {
      PendingAfterDelete(users[1..], id);
      if users[0].id != id {
        assert DeleteUser(users, id)[1..] == DeleteUser(users[1..], id);
      }
    }
  }

  /** `update({ status: s }).eq('id', id)`. */
  function SetStatus(events: seq<EventRow>, id: string, status: string): (r: seq<EventRow>)
    ensures |r| == |events|
    ensures forall i :: 0 <= i < |r| ==> r[i].id == events[i].id
    ensures forall i :: 0 <= i < |r| ==> r[i].status == if events[i].id == id then status else events[i].status
  {
    if events == [] then []
    else
      var e := events[0];
      [if e.id == id then e.(status := status) else e] + SetStatus(events[1..], id, status)
  }

  function DeleteEvent(events: seq<EventRow>, id: string): (r: seq<EventRow>)
    ensures forall e: EventRow :: e in r <==> e in events && e.id != id
    ensures forall e: EventRow :: e.id != id ==> Count(r, e) == Count(events, e)
    ensures |r| <= |events|
  {
    if events == [] then []
    else if events[0].id == id then DeleteEvent(events[1..], id)
    else [events[0]] + DeleteEvent(events[1..], id)
  }

  datatype EventAction = Approve | Reject | DeleteEventAction

  /** `handleEventAction` applied to the events table. */
  function ApplyEventAction(events: seq<EventRow>, id: string, action: EventAction): seq<EventRow> {
    match action
    case Approve => SetStatus(events, id, "published")
    case Reject => SetStatus(events, id, "cancelled")
    case DeleteEventAction => DeleteEvent(events, id)
  }

  /** The action buttons of an event row: approve only for a draft. */
  function EventActionsOffered(e: EventRow): (r: seq<EventAction>)
    ensures Approve in r <==> e.status == "draft"
    ensures Reject in r && DeleteEventAction in r
    ensures NoDup(r)
  {
    if e.status == "draft" then [Approve, Reject, DeleteEventAction] else [Reject, DeleteEventAction]
  }

  /** Every offered action on a listed event acts on that event: approve
      publishes it, reject cancels it, delete removes every row with its id,
      and rows with other ids are left as they were. */
  lemma OfferedActionEffect(events: seq<EventRow>, i: nat, a: EventAction)
    requires i < |events|
    requires a in EventActionsOffered(events[i])
    ensures a == Approve ==> events[i].status == "draft" && ApplyEventAction(events, events[i].id, a)[i].status == "published"
    ensures a == Reject ==> ApplyEventAction(events, events[i].id, a)[i].status == "cancelled"
    ensures a == DeleteEventAction ==> forall e :: e in ApplyEventAction(events, events[i].id, a) ==> e.id != events[i].id
    ensures a != DeleteEventAction ==> forall j :: 0 <= j < |events| && events[j].id != events[i].id ==>
      ApplyEventAction(events, events[i].id, a)[j] == events[j]
  {
  }

  /** The render guard: the page is shown only to an admin. */
  predicate IsAdmin(user: Option<User>) {
    user.Some? && user.value.role == "admin"
  }

  /** The effect's guard: `fetchDashboardData` runs only for an admin. */
  predicate FetchesData(user: Option<User>) {
    user.Some? && user.value.role == "admin"
  }

  datatype View = AccessDenied | Loading | Dashboard

  /** What the page shows. `fetchSettled` says whether a fetch, once started,
      has settled; the spinner ends only when the effect started one. */
  function PageView(user: Option<User>, fetchSettled: bool): (v: View)
    ensures v == AccessDenied <==> !IsAdmin(user)
    ensures v == Dashboard <==> FetchesData(user) && IsAdmin(user) && fetchSettled
  {
    if !IsAdmin(user) then AccessDenied
    else if FetchesData(user) && fetchSettled then Dashboard
    else Loading
  }

  /** The two guards agree: a user who triggers no fetch is denied access
      whatever the fetch state, and every user let in triggers the fetch, so
      the page never waits on a fetch that was not started. */
  lemma GuardsAgree(user: Option<User>, fetchSettled: bool)
    ensures FetchesData(user) <==> IsAdmin(user)
    ensures !FetchesData(user) ==> PageView(user, fetchSettled) == AccessDenied
    ensures FetchesData(user) <==> PageView(user, fetchSettled) != AccessDenied
    ensures FetchesData(user) && fetchSettled ==> PageView(user, fetchSettled) == Dashboard
  {
  }
}

=== FILE: lists.dfy ===
/** Sequence helpers shared by the client-side state of the pages: occurrence
    counting, duplicate-freedom, the "remove if present, else append" toggle
    used by the seat picker and the vendor form, sums, filters, prefixes and a
    stable descending sort (the comparator sorts of the dashboards). */
module Lists {

  datatype Option<T> = None | Some(value: T)

  /** Number of occurrences of `x` in `s`. */
  function Count<T(==)>(s: seq<T>, x: T): (n: nat)
    ensures n <= |s|
    ensures n == 0 <==> x !in s
  {
    if s == [] then 0 else (if s[0] == x then 1 else 0) + Count(s[1..], x)
  }

  lemma {:induction false} CountAppend<T>(a: seq<T>, b: seq<T>, x: T)
    ensures Count(a + b, x) == Count(a, x) + Count(b, x)
  {
    if a == [] {
      assert a + b == b;
    } else {
      assert (a + b)[1..] == a[1..] + b;
      CountAppend(a[1..], b, x);
    }
  }

  /** No element occurs twice. */
  predicate NoDup<T(==)>(s: seq<T>) {
    forall i, j :: 0 <= i < j < |s| ==> s[i] != s[j]
  }

  /** Duplicate-freedom stated by indices and by occurrence counts agree. */
  lemma {:induction false} NoDupIffCountAtMostOne<T>(s: seq<T>)
    ensures NoDup(s) <==> forall x :: Count(s, x) <= 1
  {
    if s == [] {
    } else {
      NoDupIffCountAtMostOne(s[1..]);
      if NoDup(s) {
        assert NoDup(s[1..]) by {
          forall i, j | 0 <= i < j < |s[1..]| ensures s[1..][i] != s[1..][j] {
            assert s[1..][i] == s[i + 1] && s[1..][j] == s[j + 1];
          }
        }
        forall x ensures Count(s, x) <= 1 {
          assert Count(s[1..], x) <= 1;
        }
      } else {
        var i, j :| 0 <= i < j < |s| && s[i] == s[j];
        if i == 0 {
          assert s[1..][j - 1] == s[0];
          assert Count(s, s[0]) >= 2;
        } else {
          assert s[1..][i - 1] == s[1..][j - 1];
          assert !NoDup(s[1..]);
          var x :| Count(s[1..], x) > 1;
          assert Count(s, x) > 1;
        }
      }
    }
  }

  /** `s` with every occurrence of `x` dropped, order kept (`filter(y => y !== x)`). */
  function RemoveAll<T(==,!new)>(s: seq<T>, x: T): (r: seq<T>)
    ensures x !in r
    ensures forall y :: y != x ==> Count(r, y) == Count(s, y)
    ensures |r| == |s| - Count(s, x)
  {
    if s == [] then []
    else if s[0] == x then RemoveAll(s[1..], x)
    else [s[0]] + RemoveAll(s[1..], x)
  }

  lemma {:induction false} RemoveAllAbsent<T(!new)>(s: seq<T>, x: T)
    requires x !in s
    ensures RemoveAll(s, x) == s
  {
    if s != [] {
      assert x !in s[1..];
      RemoveAllAbsent(s[1..], x);
    }
  }

  lemma {:induction false} RemoveAllAppend<T(!new)>(a: seq<T>, b: seq<T>, x: T)
    ensures RemoveAll(a + b, x) == RemoveAll(a, x) + RemoveAll(b, x)
  {
    if a == [] {
      assert a + b == b;
    } else {
      assert (a + b)[1..] == a[1..] + b;
      RemoveAllAppend(a[1..], b, x);
    }
  }

  /** Membership toggle: drop `x` if present, otherwise append it at the end. */
  function Toggle<T(==,!new)>(s: seq<T>, x: T): (r: seq<T>)
    ensures x in r <==> x !in s
    ensures forall y :: y != x ==> Count(r, y) == Count(s, y)
    ensures x !in s ==> r == s + [x]
    ensures NoDup(s) ==> NoDup(r)
  {
    var r := if x in s then RemoveAll(s, x) else s + [x];
    ToggleCounts(s, x);
    NoDupIffCountAtMostOne(s);
    NoDupIffCountAtMostOne(r);
    r
  }

  lemma ToggleCounts<T>(s: seq<T>, x: T)
    ensures x !in s ==> forall y :: Count(s + [x], y) == Count(s, y) + (if y == x then 1 else 0)
  {
    if x !in s {
      forall y ensures Count(s + [x], y) == Count(s, y) + (if y == x then 1 else 0) {
        CountAppend(s, [x], y);
      }
    }
  }

  /** Toggling an absent element twice restores the exact list; toggling any
      element twice restores its membership. */
  lemma ToggleTwice<T(!new)>(s: seq<T>, x: T)
    ensures x in Toggle(Toggle(s, x), x) <==> x in s
    ensures x !in s ==> Toggle(Toggle(s, x), x) == s
  {
    if x !in s {
      RemoveAllAppend(s, [x], x);
      RemoveAllAbsent(s, x);
      assert RemoveAll([x], x) == [];
    }
  }

  /** Sum of `f` over the elements of `s` (a `reduce` starting from 0). */
  function Sum<T>(s: seq<T>, f: T -> int): int
  {
    if s == [] then 0 else f(s[0]) + Sum(s[1..], f)
  }

  lemma {:induction false} SumAppend<T>(a: seq<T>, b: seq<T>, f: T -> int)
    ensures Sum(a + b, f) == Sum(a, f) + Sum(b, f)
  {
    if a == [] {
      assert a + b == b;
    } else {
      assert (a + b)[1..] == a[1..] + b;
      SumAppend(a[1..], b, f);
    }
  }

  /** Elements of `s` satisfying `p`, in order (`Array.prototype.filter`). */
  function Filter<T(!new)>(s: seq<T>, p: T -> bool): (r: seq<T>)
    ensures |r| <= |s|
    ensures forall x :: x in r <==> x in s && p(x)
  {
    if s == [] then []
    else if p(s[0]) then [s[0]] + Filter(s[1..], p)
    else Filter(s[1..], p)
  }

  /** Filtering keeps every passing element with its multiplicity and drops
      every other one. */
  lemma {:induction false} FilterMultiset<T(!new)>(s: seq<T>, p: T -> bool)
    ensures forall x :: multiset(Filter(s, p))[x] == if p(x) then multiset(s)[x] else 0
  {
    if s != [] {
      assert s == [s[0]] + s[1..];
      FilterMultiset(s[1..], p);
    }
  }

  /** The same fact counted with `Count`. */
  lemma {:induction false} FilterCount<T(!new)>(s: seq<T>, p: T -> bool)
    ensures forall x :: Count(Filter(s, p), x) == if p(x) then Count(s, x) else 0
  {
    if s != [] {
      FilterCount(s[1..], p);
    }
  }

  /** Filtering a prefix one element longer adds that element when it passes. */
  lemma {:induction false} FilterSnoc<T(!new)>(s: seq<T>, k: nat, p: T -> bool)
    requires k < |s|
    ensures Filter(s[..k + 1], p) == Filter(s[..k], p) + (if p(s[k]) then [s[k]] else [])
  {
    if k > 0 {
      assert s[..k + 1][1..] == s[1..][..k];
      assert s[..k][1..] == s[1..][..k - 1];
      FilterSnoc(s[1..], k - 1, p);
    }
  }

  /** The first `n` elements passing `p` are all the passing elements of some
      prefix of `s` (`filter(p).slice(0, n)` skips no earlier element). */
  lemma {:induction false} TakeFilterIsPrefixFilter<T(!new)>(s: seq<T>, p: T -> bool, n: nat) returns (k: nat)
    ensures k <= |s|
    ensures Take(Filter(s, p), n) == Filter(s[..k], p)
  {
    if s == [] || n == 0 {
      k := 0;
      assert s[..0] == [];
    } else {
      var k' := TakeFilterIsPrefixFilter(s[1..], p, if p(s[0]) then n - 1 else n);
      k := k' + 1;
      assert s[..k][1..] == s[1..][..k'];
      assert s[..k] == [s[0]] + s[1..][..k'];
      if p(s[0]) {
        assert Take([s[0]] + Filter(s[1..], p), n) == [s[0]] + Take(Filter(s[1..], p), n - 1);
      }
    }
  }

  /** The first `n` elements, or all of them when there are fewer (`slice(0, n)`). */
  function Take<T>(s: seq<T>, n: nat): seq<T>
  {
    if n < |s| then s[..n] else s
  }

  /** `Take` keeps the first `min(n, |s|)` elements, unchanged and in order. */
  lemma TakeSpec<T>(s: seq<T>, n: nat)
    ensures |Take(s, n)| == Min(n, |s|)
    ensures forall i :: 0 <= i < |Take(s, n)| ==> Take(s, n)[i] == s[i]
  {
  }

  function Min(a: int, b: int): int { if a <= b then a else b }

  function Max(a: int, b: int): int { if a >= b then a else b }

  /** `s` is ordered by `key`, largest first. */
  predicate NonIncreasing<T>(s: seq<T>, key: T -> int) {
    forall i, j :: 0 <= i < j < |s| ==> key(s[i]) >= key(s[j])
  }

  /** Places `x` in front of the first element whose key is not larger, so
      equal keys keep their input order. */
  function InsertDesc<T(==)>(x: T, s: seq<T>, key: T -> int): (r: seq<T>)
    requires NonIncreasing(s, key)
    ensures NonIncreasing(r, key)
    ensures multiset(r) == multiset(s) + multiset{x}
    ensures |r| == |s| + 1
  {
    if s == [] then [x]
    else if key(x) >= key(s[0]) then [x] + s
    else
      var rest := InsertDesc(x, s[1..], key);
      assert s == [s[0]] + s[1..];
      InsertDescHead(x, s, rest, key);
      [s[0]] + rest
  }

  lemma InsertDescHead<T>(x: T, s: seq<T>, rest: seq<T>, key: T -> int)
    requires s != [] && NonIncreasing(s, key) && key(x) < key(s[0])
    requires NonIncreasing(rest, key)
    requires multiset(rest) == multiset(s[1..]) + multiset{x}
    ensures NonIncreasing([s[0]] + rest, key)
  {
    forall j | 0 <= j < |rest| ensures key(s[0]) >= key(rest[j]) {
      assert rest[j] in multiset(rest);
      if rest[j] != x {
        assert rest[j] in multiset(s[1..]);
        var k :| 0 <= k < |s[1..]| && s[1..][k] == rest[j];
        assert s[k + 1] == rest[j];
      }
    }
    var r := [s[0]] + rest;
    forall i, j | 0 <= i < j < |r| ensures key(r[i]) >= key(r[j]) {
      if i > 0 {
        assert r[i] == rest[i - 1] && r[j] == rest[j - 1];
      } else {
        assert r[j] == rest[j - 1];
      }
    }
  }

  /** Stable sort, largest key first: the model of
      `array.sort((a, b) => key(b) - key(a))`. */
  function SortDesc<T(==)>(s: seq<T>, key: T -> int): (r: seq<T>)
    ensures NonIncreasing(r, key)
    ensures multiset(r) == multiset(s)
    ensures |r| == |s|
  {
    if s == [] then []
    else
      assert s == [s[0]] + s[1..];
      InsertDesc(s[0], SortDesc(s[1..], key), key)
  }
}

=== FILE: navbar.dfy ===
/** The responsive navigation bar: which dashboard the "Dashboard" link
    leads to for the signed-in user, and the search form's navigation target
    with the query parameters it includes. */
module Navbar {
  import opened Lists
  import opened Text
  import opened Session
  import OrganizerDashboard
  import AdminDashboard

  /** `getDashboardRoute`. */
  function DashboardRoute(user: Option<User>): (route: string)
    ensures route == "/admin" <==> HasRole(user, "admin")
    ensures route == "/organizer" <==> HasRole(user, "vendor")
    ensures route == "/dashboard" <==> !HasRole(user, "admin") && !HasRole(user, "vendor")
  {
    if user.None? then "/dashboard"
    else match user.value.role
      case "admin" => "/admin"
      case "vendor" => "/organizer"
      case _ => "/dashboard"
  }

  /** The link is always one of three paths, and the role a path names
      passes the access gate of the dashboard page of the same name: an
      admin passes the admin page's gate, and a vendor passes the organizer
      page's gate and is the role whose data that page loads. This relates
      the gates only; it does not say the paths are routed. */
  lemma DashboardRouteAdmits(user: Option<User>)
    ensures DashboardRoute(user) in {"/admin", "/organizer", "/dashboard"}
    ensures DashboardRoute(user) == "/admin" ==> AdminDashboard.PageView(user, true) == AdminDashboard.Dashboard
    ensures DashboardRoute(user) == "/organizer" ==> OrganizerDashboard.SettledView(user) == OrganizerDashboard.Dashboard
  {
  }

  /** The state the search handler reads and writes. */
  datatype SearchState = SearchState(searchQuery: string, locationQuery: string, menuOpen: bool)

  datatype Param = Param(name: string, value: string)

  /** `URLSearchParams` after the two conditional `set` calls. */
  function SearchParams(searchQuery: string, locationQuery: string): seq<Param> {
    (if searchQuery != "" then [Param("search", searchQuery)] else [])
    + (if locationQuery != "" then [Param("location", locationQuery)] else [])
  }

  /** A query is included exactly when it is non-empty, `search` before
      `location`, and no other parameter is set. */
  lemma SearchParamsSpec(searchQuery: string, locationQuery: string)
    ensures var ps := SearchParams(searchQuery, locationQuery);
      |ps| <= 2
      && ((exists i :: 0 <= i < |ps| && ps[i] == Param("search", searchQuery)) <==> searchQuery != "")
      && ((exists i :: 0 <= i < |ps| && ps[i] == Param("location", locationQuery)) <==> locationQuery != "")
      && (forall i :: 0 <= i < |ps| ==> ps[i].name in {"search", "location"} && ps[i].value != "")
      && (|ps| == 2 ==> ps[0].name == "search" && ps[1].name == "location")
  {
    var ps := SearchParams(searchQuery, locationQuery);
    assert searchQuery != "" ==> ps[0] == Param("search", searchQuery);
    assert locationQuery != "" ==> ps[|ps| - 1] == Param("location", locationQuery);
  }

  /** `params.toString()`: `name=value` pairs joined by `&`, each value passed
      through the form encoder `encode`. */
  function Serialize(ps: seq<Param>, encode: string -> string): string {
    if ps == [] then ""
    else if |ps| == 1 then ps[0].name + "=" + encode(ps[0].value)
    else ps[0].name + "=" + encode(ps[0].value) + "&" + Serialize(ps[1..], encode)
  }

  /** `handleSearch`: navigate to `/events?` plus the parameters, and close
      the mobile menu. */
  function HandleSearch(s: SearchState, encode: string -> string): (r: (string, SearchState))
    ensures StartsWith(r.0, "/events?")
    ensures !r.1.menuOpen
    ensures r.1.searchQuery == s.searchQuery && r.1.locationQuery == s.locationQuery
  {
    var url := "/events?" + Serialize(SearchParams(s.searchQuery, s.locationQuery), encode);
    assert url[..|"/events?"|] == "/events?";
    (url, s.(menuOpen := false))
  }

  /** Both queries set: the two pairs joined by one `&`. */
  lemma SerializeBoth(searchQuery: string, locationQuery: string, encode: string -> string)
    requires searchQuery != "" && locationQuery != ""
    ensures Serialize(SearchParams(searchQuery, locationQuery), encode)
      == "search=" + encode(searchQuery) + "&location=" + encode(locationQuery)
  {
    var ps := SearchParams(searchQuery, locationQuery);
    assert ps == [Param("search", searchQuery), Param("location", locationQuery)];
    assert ps[1..] == [Param("location", locationQuery)];
    var e1, e2 := encode(searchQuery), encode(locationQuery);
    assert Serialize(ps[1..], encode) == "location" + "=" + e2;
    assert "search" + "=" == "search=";
    assert "&" + ("location" + "=") == "&location=";
  }

  /** With neither query the target is the bare events page; with one, only
      that query's pair follows the `?`. */
  lemma SearchUrlOneQuery(s: SearchState, encode: string -> string)
    ensures s.searchQuery == "" && s.locationQuery == "" ==> HandleSearch(s, encode).0 == "/events?"
    ensures s.searchQuery != "" && s.locationQuery == "" ==>
      HandleSearch(s, encode).0 == "/events?search=" + encode(s.searchQuery)
    ensures s.searchQuery == "" && s.locationQuery != "" ==>
      HandleSearch(s, encode).0 == "/events?location=" + encode(s.locationQuery)
  {
    if s.searchQuery != "" && s.locationQuery == "" {
      assert SearchParams(s.searchQuery, s.locationQuery) == [Param("search", s.searchQuery)];
      assert "/events?" + ("search" + "=" + encode(s.searchQuery)) == "/events?search=" + encode(s.searchQuery);
    } else if s.searchQuery == "" && s.locationQuery != "" {
      assert SearchParams(s.searchQuery, s.locationQuery) == [Param("location", s.locationQuery)];
      assert "/events?" + ("location" + "=" + encode(s.locationQuery)) == "/events?location=" + encode(s.locationQuery);
    }
  }

  /** With both queries the target carries both pairs, `search` first. */
  lemma SearchUrlBothQueries(s: SearchState, encode: string -> string)
    requires s.searchQuery != "" && s.locationQuery != ""
    ensures HandleSearch(s, encode).0
      == "/events?search=" + encode(s.searchQuery) + "&location=" + encode(s.locationQuery)
  {
    SerializeBoth(s.searchQuery, s.locationQuery, encode);
  }
}

=== FILE: organizer.dfy ===
/** The organizer dashboard: the statistics computed from the fetched event
    and booking rows, the recent-activity feed, the upcoming-events list, the
    per-event sold counts, the top-performers ranking, and the role gate.
    Dates are integer timestamps and the current time is a parameter. */
module OrganizerDashboard {
  import opened Lists
  import opened Session

  datatype TicketRow = TicketRow(price: int, quantitySold: int)

  /** An event row as fetched; `tickets` is absent when the join is missing. */
  datatype Event = Event(
    id: string,
    title: string,
    status: string,
    startDate: int,
    createdAt: int,
    tickets: Option<seq<TicketRow>>)

  datatype Booking = Booking(eventTitle: string, userName: string, totalAmount: int, createdAt: int)

  datatype Stats = Stats(totalEvents: nat, totalBookings: nat, totalRevenue: int, upcomingEvents: nat)

  /** `data || []`: a failed query yields no rows. */
  function OrEmpty<T>(data: Option<seq<T>>): seq<T> {
    match data
    case None => []
    case Some(rows) => rows
  }

  function Revenue(bookings: seq<Booking>): int {
    if bookings == [] then 0 else bookings[0].totalAmount + Revenue(bookings[1..])
  }

  predicate IsUpcoming(e: Event, now: int) {
    e.startDate > now
  }

  /** Events that start after `now`, in list order. */
  function UpcomingEvents(events: seq<Event>, now: int): (r: seq<Event>)
    ensures |r| <= |events|
    ensures forall e :: e in r <==> e in events && IsUpcoming(e, now)
  {
    Filter(events, (e: Event) => IsUpcoming(e, now))
  }

  /** Reference count: the number of fetched rows (with repeats) that start
      after `now`. */
  function UpcomingCount(events: seq<Event>, now: int): nat {
    if events == [] then 0
    else (if IsUpcoming(events[0], now) then 1 else 0) + UpcomingCount(events[1..], now)
  }

  /** The filtered list has one element per upcoming row. */
  lemma {:induction false} UpcomingEventsCount(events: seq<Event>, now: int)
    ensures |UpcomingEvents(events, now)| == UpcomingCount(events, now)
  {
    if events != [] {
      UpcomingEventsCount(events[1..], now);
    }
  }

  /** The four stat cards: with rows, the events and bookings counted, the
      bookings' amounts summed and the upcoming rows counted; without rows,
      zeros. */
  function ComputeStats(eventsData: Option<seq<Event>>, bookingsData: Option<seq<Booking>>, now: int): (s: Stats)
    ensures eventsData.None? ==> s.totalEvents == 0 && s.upcomingEvents == 0
    ensures bookingsData.None? ==> s.totalBookings == 0 && s.totalRevenue == 0
    ensures eventsData.Some? ==>
      s.totalEvents == |eventsData.value| && s.upcomingEvents == UpcomingCount(eventsData.value, now)
    ensures bookingsData.Some? ==>
      s.totalBookings == |bookingsData.value| && s.totalRevenue == Sum(bookingsData.value, (b: Booking) => b.totalAmount)
    ensures s.upcomingEvents <= s.totalEvents
    ensures s.upcomingEvents == 0 <==> forall e :: e in OrEmpty(eventsData) ==> !IsUpcoming(e, now)
  {
    var events := OrEmpty(eventsData);
    var bookings := OrEmpty(bookingsData);
    var upcoming := UpcomingEvents(events, now);
    assert |upcoming| > 0 ==> upcoming[0] in upcoming;
    UpcomingEventsCount(events, now);
    RevenueIsSum(bookings);
    Stats(|events|, |bookings|, Revenue(bookings), |upcoming|)
  }

  /** `reduce((sum, b) => sum + b.total_amount, 0)` is the plain sum of the
      amounts. */
  lemma {:induction false} RevenueIsSum(bookings: seq<Booking>)
    ensures Revenue(bookings) == Sum(bookings, (b: Booking) => b.totalAmount)
  {
    if bookings != [] {
      RevenueIsSum(bookings[1..]);
    }
  }

  /** Revenue adds up over bookings and is non-negative when every amount is. */
  lemma {:induction false} RevenueAppend(a: seq<Booking>, b: seq<Booking>)
    ensures Revenue(a + b) == Revenue(a) + Revenue(b)
    ensures (forall i :: 0 <= i < |a| ==> a[i].totalAmount >= 0) ==> Revenue(a) >= 0
  {
    if a == [] {
      assert a + b == b;
    } else {
      assert (a + b)[1..] == a[1..] + b;
      assert forall i :: 0 <= i < |a[1..]| ==> a[1..][i] == a[i + 1];
      RevenueAppend(a[1..], b);
    }
  }

  datatype ActivityKind = BookingActivity | EventActivity

  datatype Activity = Activity(kind: ActivityKind, message: string, time: int, user: Option<string>)

  function FromBooking(b: Booking): Activity {
    Activity(BookingActivity, "New booking for " + b.eventTitle, b.createdAt, Some(b.userName))
  }

  function FromEvent(e: Event): Activity {
    Activity(EventActivity, "Event " + e.title + " " + e.status, e.createdAt, None)
  }

  function ActivityTime(a: Activity): int {
    a.time
  }

  function BookingActivities(bookings: seq<Booking>): (r: seq<Activity>)
    ensures |r| == |bookings|
    ensures forall i :: 0 <= i < |r| ==> r[i] == FromBooking(bookings[i])
  {
    seq(|bookings|, i requires 0 <= i < |bookings| => FromBooking(bookings[i]))
  }

  function EventActivities(events: seq<Event>): (r: seq<Activity>)
    ensures |r| == |events|
    ensures forall i :: 0 <= i < |r| ==> r[i] == FromEvent(events[i])
  {
    seq(|events|, i requires 0 <= i < |events| => FromEvent(events[i]))
  }

  /** The feed's candidates: the first five bookings and the first three
      events, bookings first. */
  function ActivitySources(events: seq<Event>, bookings: seq<Booking>): seq<Activity> {
    BookingActivities(Take(bookings, 5)) + EventActivities(Take(events, 3))
  }

  /** `recentActivity`: the candidates sorted newest first, then cut to ten. */
  function RecentActivity(events: seq<Event>, bookings: seq<Booking>): seq<Activity> {
    Take(SortDesc(ActivitySources(events, bookings), ActivityTime), 10)
  }

  /** The feed holds exactly the first five bookings and first three events
      (so at most eight entries and the cut to ten never drops one), newest
      first. */
  lemma RecentActivityShape(events: seq<Event>, bookings: seq<Booking>)
    ensures var r := RecentActivity(events, bookings);
      |r| == Min(|bookings|, 5) + Min(|events|, 3) && |r| <= 8
    ensures NonIncreasing(RecentActivity(events, bookings), ActivityTime)
    ensures multiset(RecentActivity(events, bookings)) == multiset(ActivitySources(events, bookings))
  {
    var sorted := SortDesc(ActivitySources(events, bookings), ActivityTime);
    assert |sorted| <= 8;
    assert RecentActivity(events, bookings) == sorted;
  }

  /** The overview lists the first five of the feed: none of the entries left
      out is newer than an entry shown. */
  lemma ShownActivityIsNewest(events: seq<Event>, bookings: seq<Booking>)
    ensures var r := RecentActivity(events, bookings);
      forall i, j :: 0 <= i < |Take(r, 5)| && |Take(r, 5)| <= j < |r| ==> r[j].time <= Take(r, 5)[i].time
  {
    var r := RecentActivity(events, bookings);
    RecentActivityShape(events, bookings);
    var shown := Take(r, 5);
    assert forall i :: 0 <= i < |shown| ==> shown[i] == r[i];
    forall i, j | 0 <= i < |shown| && |shown| <= j < |r| ensures r[j].time <= shown[i].time {
      assert ActivityTime(r[i]) >= ActivityTime(r[j]);
    }
  }

  /** The overview's upcoming list: at most five upcoming events, in list order. */
  function UpcomingList(events: seq<Event>, now: int): seq<Event> {
    Take(UpcomingEvents(events, now), 5)
  }

  lemma UpcomingListSpec(events: seq<Event>, now: int)
    ensures |UpcomingList(events, now)| == Min(5, ComputeStats(Some(events), None, now).upcomingEvents)
    ensures forall e :: e in UpcomingList(events, now) ==> e in events && IsUpcoming(e, now)
    ensures exists k :: 0 <= k <= |events| && UpcomingList(events, now) == UpcomingEvents(events[..k], now)
  {
    var u := UpcomingEvents(events, now);
    UpcomingEventsCount(events, now);
    var k := TakeFilterIsPrefixFilter(events, (e: Event) => IsUpcoming(e, now), 5);
    assert UpcomingList(events, now) == UpcomingEvents(events[..k], now);
    forall e | e in UpcomingList(events, now) ensures e in u {
      if 5 < |u| {
        var k :| 0 <= k < 5 && u[..5][k] == e;
        assert u[k] == e;
      }
    }
  }

  function SumSold(tickets: seq<TicketRow>): int {
    if tickets == [] then 0 else tickets[0].quantitySold + SumSold(tickets[1..])
  }

  function SumRevenue(tickets: seq<TicketRow>): int {
    if tickets == [] then 0 else tickets[0].quantitySold * tickets[0].price + SumRevenue(tickets[1..])
  }

  /** `tickets?.reduce(sum + quantity_sold) || 0`: tickets sold for an event. */
  function SoldCount(e: Event): int {
    match e.tickets
    case None => 0
    case Some(ts) => SumSold(ts)
  }

  /** `tickets?.reduce(sum + quantity_sold * price) || 0`: an event's revenue. */
  function EventRevenue(e: Event): int {
    match e.tickets
    case None => 0
    case Some(ts) => SumRevenue(ts)
  }

  /** Each further ticket row adds its own sales and revenue; non-negative
      rows give non-negative totals. */
  lemma {:induction false} SoldAndRevenueAppend(ts: seq<TicketRow>, t: TicketRow)
    ensures SumSold(ts + [t]) == SumSold(ts) + t.quantitySold
    ensures SumRevenue(ts + [t]) == SumRevenue(ts) + t.quantitySold * t.price
    ensures (forall i :: 0 <= i < |ts| ==> ts[i].quantitySold >= 0 && ts[i].price >= 0) ==>
      SumSold(ts) >= 0 && SumRevenue(ts) >= 0
  {
    if ts != [] {
      assert (ts + [t])[1..] == ts[1..] + [t];
      assert forall i :: 0 <= i < |ts[1..]| ==> ts[1..][i] == ts[i + 1];
      SoldAndRevenueAppend(ts[1..], t);
      if ts[0].quantitySold >= 0 && ts[0].price >= 0 {
        assert ts[0].quantitySold * ts[0].price >= 0;
      }
    }
  }

  /** The "Top Performing Events" panel: events by revenue, highest first,
      at most five. */
  function TopPerformers(events: seq<Event>): seq<Event> {
    Take(SortDesc(events, EventRevenue), 5)
  }

  /** The panel shows min(5, n) events, ordered by revenue, each one of the
      organizer's, and no event left out earned more than one shown. */
  lemma TopPerformersSpec(events: seq<Event>)
    ensures |TopPerformers(events)| == Min(5, |events|)
    ensures NonIncreasing(TopPerformers(events), EventRevenue)
    ensures forall e :: e in TopPerformers(events) ==> e in events
    ensures forall e, i :: e in events && e !in TopPerformers(events) && 0 <= i < |TopPerformers(events)| ==>
      EventRevenue(e) <= EventRevenue(TopPerformers(events)[i])
  {
    var sorted := SortDesc(events, EventRevenue);
    var top := TopPerformers(events);
    assert forall k :: 0 <= k < |top| ==> top[k] == sorted[k];
    forall e | e in top ensures e in events {
      var k :| 0 <= k < |top| && top[k] == e;
      assert sorted[k] in multiset(sorted);
    }
    forall e, i | e in events && e !in top && 0 <= i < |top|
      ensures EventRevenue(e) <= EventRevenue(top[i])
    {
      assert e in multiset(sorted);
      var j :| 0 <= j < |sorted| && sorted[j] == e;
    }
  }

  /** The data is fetched only for a vendor. */
  predicate FetchesData(user: Option<User>) {
    user.Some? && user.value.role == "vendor"
  }

  /** The page admits a vendor or an organizer. */
  predicate Admitted(user: Option<User>) {
    user.Some? && (user.value.role == "vendor" || user.value.role == "organizer")
  }

  datatype View = AccessDenied | Loading | Dashboard

  /** What the page shows once any fetch it started has settled: `loading`
      starts true and only the fetch's `finally` clears it. */
  function SettledView(user: Option<User>): (v: View)
    ensures v == Dashboard <==> FetchesData(user)
    ensures v == AccessDenied <==> !Admitted(user)
  {
    if !Admitted(user) then AccessDenied
    else if FetchesData(user) then Dashboard
    else Loading
  }

  /** An organizer is let in but never fetches, so the spinner never ends. */
  lemma OrganizerStaysLoading(id: string)
    ensures SettledView(Some(User(id, "organizer"))) == Loading
  {
  }

  /** `handleDeleteEvent`: once confirmed, the refetched list is the old one
      without the deleted id; declined, nothing changes. */
  function DeleteEvent(events: seq<Event>, id: string, confirmed: bool): (r: seq<Event>)
    ensures !confirmed ==> r == events
    ensures confirmed ==> forall e :: e in r <==> e in events && e.id != id
    ensures confirmed ==> forall e: Event :: e.id != id ==> Count(r, e) == Count(events, e)
    ensures |r| <= |events|
  {
    if confirmed then
      FilterCount(events, (e: Event) => e.id != id);
      Filter(events, (e: Event) => e.id != id)
    else events
  }
}

=== FILE: seats.dfy ===
/** The seat-selection modal: the three priced sections and their generated
    seats, the fixed booked seats, the ordered list of selected seat ids that a
    click toggles, the running total, each seat's display status, and the
    section tabs. */
module SeatSelection {
  import opened Lists
  import opened Text

  /** A generated seat. Row seats carry their row letter and 1-based number;
      table seats carry their 1-based table and position letter. */
  datatype Seat =
    | RowSeat(id: string, row: char, number: nat, isBooked: bool, isSelected: bool)
    | TableSeat(id: string, table: nat, position: char, isBooked: bool, isSelected: bool)

  /** Ids the row generator marks as booked. */
  const RowBookedIds: set<string> := {"VIP-A-3", "VIP-A-4", "REG-C-7", "REG-C-8", "TBL-1-A"}

  /** Ids the table generator marks as booked. */
  const TableBookedIds: set<string> := {"TBL-1-A", "TBL-1-B", "TBL-3-C"}

  const AllBookedIds: set<string> := RowBookedIds + TableBookedIds

  // ---------------------------------------------------------------------------
  // Row sections: `prefix-<row letter>-<seat number>`

  function RowSeatId(prefix: string, row: nat, seat: nat): string
    requires 65 + row < 0xD800
  {
    prefix + "-" + [CharFromCode(65 + row)] + "-" + NatToString(seat)
  }

  /** Within one prefix a row seat id determines its row and seat number. */
  lemma RowSeatIdInjective(prefix: string, r1: nat, s1: nat, r2: nat, s2: nat)
    requires 65 + r1 < 0xD800 && 65 + r2 < 0xD800
    ensures RowSeatId(prefix, r1, s1) == RowSeatId(prefix, r2, s2) <==> r1 == r2 && s1 == s2
  {
    var a, b := RowSeatId(prefix, r1, s1), RowSeatId(prefix, r2, s2);
    if a == b {
      assert a[|prefix| + 1] == CharFromCode(65 + r1);
      assert b[|prefix| + 1] == CharFromCode(65 + r2);
      assert a[|prefix| + 3..] == NatToString(s1);
      assert b[|prefix| + 3..] == NatToString(s2);
      NatToStringInjective(s1, s2);
    }
  }

  function MakeRowSeat(prefix: string, row: nat, seat: nat, selected: seq<string>): Seat
    requires 65 + row < 0xD800
  {
    var id := RowSeatId(prefix, row, seat);
    RowSeat(id, CharFromCode(65 + row), seat, id in RowBookedIds, id in selected)
  }

  function RowOfSeats(prefix: string, row: nat, seatsPerRow: nat, selected: seq<string>): seq<Seat>
    requires 65 + row < 0xD800
  {
    seq(seatsPerRow, j requires 0 <= j < seatsPerRow => MakeRowSeat(prefix, row, j + 1, selected))
  }

  /** `generateSeats(prefix, rows, seatsPerRow)`: rows lettered from 'A', seats
      numbered from 1, booked iff listed in the row generator's booked set,
      selected iff the id is in the current selection. */
  function GenerateSeats(prefix: string, rows: nat, seatsPerRow: nat, selected: seq<string>): seq<Seat>
    requires 65 + rows <= 0xD800
  {
    if rows == 0 then []
    else GenerateSeats(prefix, rows - 1, seatsPerRow, selected) + RowOfSeats(prefix, rows - 1, seatsPerRow, selected)
  }

  /** The generator yields `rows * seatsPerRow` seats. */
  lemma {:induction false} GenerateSeatsLength(prefix: string, rows: nat, seatsPerRow: nat, selected: seq<string>)
    requires 65 + rows <= 0xD800
    ensures |GenerateSeats(prefix, rows, seatsPerRow, selected)| == rows * seatsPerRow
  {
    if rows > 0 {
      GenerateSeatsLength(prefix, rows - 1, seatsPerRow, selected);
      assert (rows - 1) * seatsPerRow + seatsPerRow == rows * seatsPerRow;
    }
  }

  /** `seat` is the row seat of some row below `rows` and number in
      `1..seatsPerRow`: its id spells them out, it is booked iff the row
      generator's booked set lists the id, and selected iff the selection does. */
  predicate IsRowSeatOf(prefix: string, rows: nat, seatsPerRow: nat, selected: seq<string>, seat: Seat)
    requires 65 + rows <= 0xD800
  {
    && seat.RowSeat?
    && 'A' <= seat.row && seat.row as int < 65 + rows
    && 1 <= seat.number <= seatsPerRow
    && seat == MakeRowSeat(prefix, seat.row as int - 65, seat.number, selected)
  }

  /** Every generated seat is a row seat of a row below `rows` with a number in
      `1..seatsPerRow`, its id spells them out, it is booked iff the row
      generator's booked set lists the id, and selected iff the selection does. */
  lemma {:induction false} GenerateSeatsWellFormed(prefix: string, rows: nat, seatsPerRow: nat, selected: seq<string>)
    requires 65 + rows <= 0xD800
    ensures forall i :: 0 <= i < |GenerateSeats(prefix, rows, seatsPerRow, selected)| ==>
      IsRowSeatOf(prefix, rows, seatsPerRow, selected, GenerateSeats(prefix, rows, seatsPerRow, selected)[i])
  {
    if rows > 0 {
      GenerateSeatsWellFormed(prefix, rows - 1, seatsPerRow, selected);
      var before := GenerateSeats(prefix, rows - 1, seatsPerRow, selected);
      var last := RowOfSeats(prefix, rows - 1, seatsPerRow, selected);
      var seats := GenerateSeats(prefix, rows, seatsPerRow, selected);
      assert seats == before + last;
      forall i | 0 <= i < |seats| ensures IsRowSeatOf(prefix, rows, seatsPerRow, selected, seats[i]) {
        if i < |before| {
          assert seats[i] == before[i];
          assert IsRowSeatOf(prefix, rows - 1, seatsPerRow, selected, before[i]);
        } else {
          assert seats[i] == last[i - |before|];
        }
      }
    }
  }

  /** Row `row`'s seat `seat` follows all seats of the rows before it. */
  lemma {:induction false} GenerateSeatsRowAt(prefix: string, rows: nat, seatsPerRow: nat, selected: seq<string>, row: nat, seat: nat)
    requires 65 + rows <= 0xD800
    requires row < rows && 1 <= seat <= seatsPerRow
    ensures var k := |GenerateSeats(prefix, row, seatsPerRow, selected)| + seat - 1;
      k < |GenerateSeats(prefix, rows, seatsPerRow, selected)|
      && GenerateSeats(prefix, rows, seatsPerRow, selected)[k] == MakeRowSeat(prefix, row, seat, selected)
  {
    var before := GenerateSeats(prefix, rows - 1, seatsPerRow, selected);
    var last := RowOfSeats(prefix, rows - 1, seatsPerRow, selected);
    assert GenerateSeats(prefix, rows, seatsPerRow, selected) == before + last;
    if row < rows - 1 {
      GenerateSeatsRowAt(prefix, rows - 1, seatsPerRow, selected, row, seat);
    }
  }

  /** Seats come out in row-major order: row `row`, seat `seat` sits at index
      `row * seatsPerRow + seat - 1`. */
  lemma GenerateSeatsAt(prefix: string, rows: nat, seatsPerRow: nat, selected: seq<string>, row: nat, seat: nat)
    requires 65 + rows <= 0xD800
    requires row < rows && 1 <= seat <= seatsPerRow
    ensures var seats := GenerateSeats(prefix, rows, seatsPerRow, selected);
      row * seatsPerRow + seat - 1 < |seats| &&
      seats[row * seatsPerRow + seat - 1] == MakeRowSeat(prefix, row, seat, selected)
  {
    GenerateSeatsLength(prefix, row, seatsPerRow, selected);
    GenerateSeatsRowAt(prefix, rows, seatsPerRow, selected, row, seat);
  }

  /** No two seats share an id. */
  predicate DistinctIds(seats: seq<Seat>) {
    forall i, j :: 0 <= i < j < |seats| ==> seats[i].id != seats[j].id
  }

  /** No two generated row seats share an id. */
  lemma {:induction false} GenerateSeatsDistinctIds(prefix: string, rows: nat, seatsPerRow: nat, selected: seq<string>)
    requires 65 + rows <= 0xD800
    ensures DistinctIds(GenerateSeats(prefix, rows, seatsPerRow, selected))
  {
    if rows > 0 {
      GenerateSeatsDistinctIds(prefix, rows - 1, seatsPerRow, selected);
      GenerateSeatsWellFormed(prefix, rows - 1, seatsPerRow, selected);
      var before := GenerateSeats(prefix, rows - 1, seatsPerRow, selected);
      var last := RowOfSeats(prefix, rows - 1, seatsPerRow, selected);
      var seats := GenerateSeats(prefix, rows, seatsPerRow, selected);
      assert seats == before + last;
      forall i, j | 0 <= i < j < |seats| ensures seats[i].id != seats[j].id {
        if j >= |before| {
          assert seats[j] == last[j - |before|];
          assert seats[j].id == RowSeatId(prefix, rows - 1, j - |before| + 1);
          if i >= |before| {
            assert seats[i] == last[i - |before|];
            RowSeatIdInjective(prefix, rows - 1, i - |before| + 1, rows - 1, j - |before| + 1);
          } else {
            var si := before[i];
            assert seats[i] == si;
            assert IsRowSeatOf(prefix, rows - 1, seatsPerRow, selected, si);
            RowSeatIdInjective(prefix, si.row as int - 65, si.number, rows - 1, j - |before| + 1);
          }
        } else {
          assert seats[i] == before[i] && seats[j] == before[j];
        }
      }
    }
  }

  // ---------------------------------------------------------------------------
  // Table section: `prefix-<table number>-<position letter>`

  function TableSeatId(prefix: string, table: nat, seat: nat): string
    requires 65 + seat < 0xD800
  {
    prefix + "-" + NatToString(table) + "-" + [CharFromCode(65 + seat)]
  }

  /** Within one prefix a table seat id determines its table and position. */
  lemma TableSeatIdInjective(prefix: string, t1: nat, s1: nat, t2: nat, s2: nat)
    requires 65 + s1 < 0xD800 && 65 + s2 < 0xD800
    ensures TableSeatId(prefix, t1, s1) == TableSeatId(prefix, t2, s2) <==> t1 == t2 && s1 == s2
  {
    var a, b := TableSeatId(prefix, t1, s1), TableSeatId(prefix, t2, s2);
    if a == b {
      assert a[|a| - 1] == CharFromCode(65 + s1);
      assert b[|b| - 1] == CharFromCode(65 + s2);
      assert a[|prefix| + 1..|a| - 2] == NatToString(t1);
      assert b[|prefix| + 1..|b| - 2] == NatToString(t2);
      NatToStringInjective(t1, t2);
    }
  }

  function MakeTableSeat(prefix: string, table: nat, seat: nat, selected: seq<string>): Seat
    requires 65 + seat < 0xD800
  {
    var id := TableSeatId(prefix, table, seat);
    TableSeat(id, table, CharFromCode(65 + seat), id in TableBookedIds, id in selected)
  }

  function TableOfSeats(prefix: string, table: nat, seatsPerTable: nat, selected: seq<string>): seq<Seat>
    requires 65 + seatsPerTable <= 0xD800
  {
    seq(seatsPerTable, j requires 0 <= j < seatsPerTable => MakeTableSeat(prefix, table, j, selected))
  }

  /** `generateTableSeats(prefix, tables, seatsPerTable)`: tables numbered from
      1, positions lettered from 'A', booked iff listed in the table
      generator's booked set, selected iff the id is in the selection. */
  function GenerateTableSeats(prefix: string, tables: nat, seatsPerTable: nat, selected: seq<string>): seq<Seat>
    requires 65 + seatsPerTable <= 0xD800
  {
    if tables == 0 then []
    else GenerateTableSeats(prefix, tables - 1, seatsPerTable, selected) + TableOfSeats(prefix, tables, seatsPerTable, selected)
  }

  /** The generator yields `tables * seatsPerTable` seats. */
  lemma {:induction false} GenerateTableSeatsLength(prefix: string, tables: nat, seatsPerTable: nat, selected: seq<string>)
    requires 65 + seatsPerTable <= 0xD800
    ensures |GenerateTableSeats(prefix, tables, seatsPerTable, selected)| == tables * seatsPerTable
  {
    if tables > 0 {
      GenerateTableSeatsLength(prefix, tables - 1, seatsPerTable, selected);
      assert (tables - 1) * seatsPerTable + seatsPerTable == tables * seatsPerTable;
    }
  }

  /** `seat` is the table seat of some table in `1..tables` and position
      below `'A' + seatsPerTable`: its id spells them out, it is booked iff the
      table generator's booked set lists the id, and selected iff the
      selection does. */
  predicate IsTableSeatOf(prefix: string, tables: nat, seatsPerTable: nat, selected: seq<string>, seat: Seat)
    requires 65 + seatsPerTable <= 0xD800
  {
    && seat.TableSeat?
    && 1 <= seat.table <= tables
    && 'A' <= seat.position && seat.position as int < 65 + seatsPerTable
    && seat == MakeTableSeat(prefix, seat.table, seat.position as int - 65, selected)
  }

  /** Every generated seat is a table seat of a table in `1..tables` with a
      position letter below `'A' + seatsPerTable`, its id spells them out, it
      is booked iff the table generator's booked set lists the id, and selected
      iff the selection does. */
  lemma {:induction false} GenerateTableSeatsWellFormed(prefix: string, tables: nat, seatsPerTable: nat, selected: seq<string>)
    requires 65 + seatsPerTable <= 0xD800
    ensures forall i :: 0 <= i < |GenerateTableSeats(prefix, tables, seatsPerTable, selected)| ==>
      IsTableSeatOf(prefix, tables, seatsPerTable, selected, GenerateTableSeats(prefix, tables, seatsPerTable, selected)[i])
  {
    if tables > 0 {
      GenerateTableSeatsWellFormed(prefix, tables - 1, seatsPerTable, selected);
      var before := GenerateTableSeats(prefix, tables - 1, seatsPerTable, selected);
      var last := TableOfSeats(prefix, tables, seatsPerTable, selected);
      var seats := GenerateTableSeats(prefix, tables, seatsPerTable, selected);
      assert seats == before + last;
      forall i | 0 <= i < |seats| ensures IsTableSeatOf(prefix, tables, seatsPerTable, selected, seats[i]) {
        if i < |before| {
          assert seats[i] == before[i];
          assert IsTableSeatOf(prefix, tables - 1, seatsPerTable, selected, before[i]);
        } else {
          assert seats[i] == last[i - |before|];
        }
      }
    }
  }

  /** Table `table`'s position `seat` follows all seats of the tables
      before it. */
  lemma {:induction false} GenerateTableSeatsTableAt(prefix: string, tables: nat, seatsPerTable: nat, selected: seq<string>, table: nat, seat: nat)
    requires 65 + seatsPerTable <= 0xD800
    requires 1 <= table <= tables && seat < seatsPerTable
    ensures var k := |GenerateTableSeats(prefix, table - 1, seatsPerTable, selected)| + seat;
      k < |GenerateTableSeats(prefix, tables, seatsPerTable, selected)|
      && GenerateTableSeats(prefix, tables, seatsPerTable, selected)[k] == MakeTableSeat(prefix, table, seat, selected)
  {
    var before := GenerateTableSeats(prefix, tables - 1, seatsPerTable, selected);
    var last := TableOfSeats(prefix, tables, seatsPerTable, selected);
    assert GenerateTableSeats(prefix, tables, seatsPerTable, selected) == before + last;
    if table < tables {
      GenerateTableSeatsTableAt(prefix, tables - 1, seatsPerTable, selected, table, seat);
    }
  }

  /** Table `table`, position `seat` (0 for 'A') sits at index
      `(table - 1) * seatsPerTable + seat`. */
  lemma GenerateTableSeatsAt(prefix: string, tables: nat, seatsPerTable: nat, selected: seq<string>, table: nat, seat: nat)
    requires 65 + seatsPerTable <= 0xD800
    requires 1 <= table <= tables && seat < seatsPerTable
    ensures var seats := GenerateTableSeats(prefix, tables, seatsPerTable, selected);
      (table - 1) * seatsPerTable + seat < |seats| &&
      seats[(table - 1) * seatsPerTable + seat] == MakeTableSeat(prefix, table, seat, selected)
  {
    GenerateTableSeatsLength(prefix, table - 1, seatsPerTable, selected);
    GenerateTableSeatsTableAt(prefix, tables, seatsPerTable, selected, table, seat);
  }

  /** No two generated table seats share an id. */
  lemma {:induction false} GenerateTableSeatsDistinctIds(prefix: string, tables: nat, seatsPerTable: nat, selected: seq<string>)
    requires 65 + seatsPerTable <= 0xD800
    ensures DistinctIds(GenerateTableSeats(prefix, tables, seatsPerTable, selected))
  {
    if tables > 0 {
      GenerateTableSeatsDistinctIds(prefix, tables - 1, seatsPerTable, selected);
      GenerateTableSeatsWellFormed(prefix, tables - 1, seatsPerTable, selected);
      var before := GenerateTableSeats(prefix, tables - 1, seatsPerTable, selected);
      var last := TableOfSeats(prefix, tables, seatsPerTable, selected);
      var seats := GenerateTableSeats(prefix, tables, seatsPerTable, selected);
      assert seats == before + last;
      forall i, j | 0 <= i < j < |seats| ensures seats[i].id != seats[j].id {
        if j >= |before| {
          assert seats[j] == last[j - |before|];
          assert seats[j].id == TableSeatId(prefix, tables, j - |before|);
          if i >= |before| {
            assert seats[i] == last[i - |before|];
            TableSeatIdInjective(prefix, tables, i - |before|, tables, j - |before|);
          } else {
            var si := before[i];
            assert seats[i] == si;
            assert IsTableSeatOf(prefix, tables - 1, seatsPerTable, selected, si);
            TableSeatIdInjective(prefix, si.table, si.position as int - 65, tables, j - |before|);
          }
        } else {
          assert seats[i] == before[i] && seats[j] == before[j];
        }
      }
    }
  }

  // ---------------------------------------------------------------------------
  // The three sections

  datatype SectionKey = Vip | Regular | Tables

  datatype Section = Section(name: string, price: nat, seats: seq<Seat>)

  function SectionPrice(key: SectionKey): nat {
    match key
    case Vip => 25000
    case Regular => 15000
    case Tables => 40000
  }

  /** The `sections` object, rebuilt from the current selection on every render. */
  function SectionOf(key: SectionKey, selected: seq<string>): Section {
    match key
    case Vip => Section("VIP Section", SectionPrice(Vip), GenerateSeats("VIP", 5, 10, selected))
    case Regular => Section("Regular Section", SectionPrice(Regular), GenerateSeats("REG", 10, 20, selected))
    case Tables => Section("Table Section", SectionPrice(Tables), GenerateTableSeats("TBL", 4, 8, selected))
  }

  /** The layout: 50 VIP seats, 200 regular seats and 32 table seats; the
      booked ones are exactly VIP-A-3 and VIP-A-4, REG-C-7 and REG-C-8, and
      TBL-1-A, TBL-1-B and TBL-3-C (the row set's TBL-1-A names no row seat). */
  lemma {:induction false} LayoutBookedSeats(selected: seq<string>)
    ensures |SectionOf(Vip, selected).seats| == 50
    ensures |SectionOf(Regular, selected).seats| == 200
    ensures |SectionOf(Tables, selected).seats| == 32
    ensures BookedIdsOf(SectionOf(Vip, selected).seats) == {"VIP-A-3", "VIP-A-4"}
    ensures BookedIdsOf(SectionOf(Regular, selected).seats) == {"REG-C-7", "REG-C-8"}
    ensures BookedIdsOf(SectionOf(Tables, selected).seats) == {"TBL-1-A", "TBL-1-B", "TBL-3-C"}
  {
    GenerateSeatsLength("VIP", 5, 10, selected);
    GenerateSeatsLength("REG", 10, 20, selected);
    GenerateTableSeatsLength("TBL", 4, 8, selected);
    VipBooked(selected);
    RegularBooked(selected);
    TablesBooked(selected);
  }

  function BookedIdsOf(s: seq<Seat>): set<string> {
    set i | 0 <= i < |s| && s[i].isBooked :: s[i].id
  }

  lemma VipBooked(selected: seq<string>)
    ensures BookedIdsOf(SectionOf(Vip, selected).seats) == {"VIP-A-3", "VIP-A-4"}
  {
    var v := SectionOf(Vip, selected).seats;
    GenerateSeatsWellFormed("VIP", 5, 10, selected);
    GenerateSeatsAt("VIP", 5, 10, selected, 0, 3);
    GenerateSeatsAt("VIP", 5, 10, selected, 0, 4);
    assert RowSeatId("VIP", 0, 3) == "VIP-A-3";
    assert RowSeatId("VIP", 0, 4) == "VIP-A-4";
    assert v[2].id == "VIP-A-3" && v[2].isBooked;
    assert v[3].id == "VIP-A-4" && v[3].isBooked;
    forall i | 0 <= i < |v| && v[i].isBooked ensures v[i].id in {"VIP-A-3", "VIP-A-4"} {
      assert v[i].id[0] == 'V';
    }
  }

  lemma RegularBooked(selected: seq<string>)
    ensures BookedIdsOf(SectionOf(Regular, selected).seats) == {"REG-C-7", "REG-C-8"}
  {
    var g := SectionOf(Regular, selected).seats;
    GenerateSeatsWellFormed("REG", 10, 20, selected);
    GenerateSeatsAt("REG", 10, 20, selected, 2, 7);
    GenerateSeatsAt("REG", 10, 20, selected, 2, 8);
    assert RowSeatId("REG", 2, 7) == "REG-C-7";
    assert RowSeatId("REG", 2, 8) == "REG-C-8";
    assert g[46].id == "REG-C-7" && g[46].isBooked;
    assert g[47].id == "REG-C-8" && g[47].isBooked;
    forall i | 0 <= i < |g| && g[i].isBooked ensures g[i].id in {"REG-C-7", "REG-C-8"} {
      assert g[i].id[0] == 'R';
    }
  }

  lemma TablesBooked(selected: seq<string>)
    ensures BookedIdsOf(SectionOf(Tables, selected).seats) == {"TBL-1-A", "TBL-1-B", "TBL-3-C"}
  {
    var t := SectionOf(Tables, selected).seats;
    GenerateTableSeatsWellFormed("TBL", 4, 8, selected);
    GenerateTableSeatsAt("TBL", 4, 8, selected, 1, 0);
    GenerateTableSeatsAt("TBL", 4, 8, selected, 1, 1);
    GenerateTableSeatsAt("TBL", 4, 8, selected, 3, 2);
    assert TableSeatId("TBL", 1, 0) == "TBL-1-A";
    assert TableSeatId("TBL", 1, 1) == "TBL-1-B";
    assert TableSeatId("TBL", 3, 2) == "TBL-3-C";
    assert t[0].id == "TBL-1-A" && t[0].isBooked;
    assert t[1].id == "TBL-1-B" && t[1].isBooked;
    assert t[18].id == "TBL-3-C" && t[18].isBooked;
  }

  /** Sections are disjoint id namespaces and every seat of the layout carries
      the booked flag of the id-based booked set. */
  lemma LayoutBookedFlags(key: SectionKey, selected: seq<string>)
    ensures var s := SectionOf(key, selected).seats;
      forall i :: 0 <= i < |s| ==>
        && (s[i].isBooked <==> s[i].id in AllBookedIds)
        && StartsWith(s[i].id, SectionPrefix(key))
  {
    var s := SectionOf(key, selected).seats;
    GenerateSeatsWellFormed("VIP", 5, 10, selected);
    GenerateSeatsWellFormed("REG", 10, 20, selected);
    GenerateTableSeatsWellFormed("TBL", 4, 8, selected);
    forall i | 0 <= i < |s|
      ensures s[i].isBooked <==> s[i].id in AllBookedIds
      ensures StartsWith(s[i].id, SectionPrefix(key))
    {
      match key {
        case Vip =>
          assert IsRowSeatOf("VIP", 5, 10, selected, s[i]);
          assert s[i].id[0] == 'V';
        case Regular =>
          assert IsRowSeatOf("REG", 10, 20, selected, s[i]);
          assert s[i].id[0] == 'R';
        case Tables =>
          assert IsTableSeatOf("TBL", 4, 8, selected, s[i]);
          assert s[i].id[0] == 'T';
      }
      BookedIdsByFirstChar(s[i].id);
      assert s[i].id[..3] == SectionPrefix(key);
    }
  }

  lemma BookedIdsByFirstChar(id: string)
    ensures id in TableBookedIds ==> id[0] == 'T'
    ensures id in RowBookedIds && id[0] == 'T' ==> id in TableBookedIds
  {
  }

  function SectionPrefix(key: SectionKey): string {
    match key
    case Vip => "VIP"
    case Regular => "REG"
    case Tables => "TBL"
  }

  // ---------------------------------------------------------------------------
  // Pricing

  /** The section a selected id is charged at: `VIP` prefix, else `REG`
      prefix, else the table section. */
  function SectionKeyOf(seatId: string): SectionKey {
    if StartsWith(seatId, "VIP") then Vip
    else if StartsWith(seatId, "REG") then Regular
    else Tables
  }

  /** Number of ids in `ids` that start with `prefix`. */
  function CountWithPrefix(ids: seq<string>, prefix: string): nat {
    |Filter(ids, (id: string) => StartsWith(id, prefix))|
  }

  /** `calculateTotal`: the sum over the selection of the price of each id's
      section. */
  function CalculateTotal(selected: seq<string>): (total: int)
    ensures total == 25000 * CountWithPrefix(selected, "VIP")
                   + 15000 * CountWithPrefix(selected, "REG")
                   + 40000 * (|selected| - CountWithPrefix(selected, "VIP") - CountWithPrefix(selected, "REG"))
    ensures total == 0 <==> selected == []
  {
    if selected == [] then 0
    else
      var id := selected[0];
      assert selected == [id] + selected[1..];
      assert StartsWith(id, "VIP") ==> !StartsWith(id, "REG");
      SectionPrice(SectionKeyOf(id)) + CalculateTotal(selected[1..])
  }

  /** The total of two selections laid end to end is the sum of their totals. */
  lemma {:induction false} CalculateTotalAdditive(a: seq<string>, b: seq<string>)
    ensures CalculateTotal(a + b) == CalculateTotal(a) + CalculateTotal(b)
  {
    if a == [] {
      assert a + b == b;
    } else {
      assert (a + b)[1..] == a[1..] + b;
      assert (a + b)[0] == a[0];
      CalculateTotalAdditive(a[1..], b);
    }
  }

  /** Every seat of a section is charged at that section's price. */
  lemma LayoutPricesAgree(key: SectionKey, selected: seq<string>)
    ensures var sec := SectionOf(key, selected);
      forall i :: 0 <= i < |sec.seats| ==> SectionPrice(SectionKeyOf(sec.seats[i].id)) == sec.price
  {
    LayoutBookedFlags(key, selected);
    var s := SectionOf(key, selected).seats;
    forall i | 0 <= i < |s| ensures SectionKeyOf(s[i].id) == key {
      assert s[i].id[..3] == SectionPrefix(key);
    }
  }

  // ---------------------------------------------------------------------------
  // Seat status

  datatype SeatStatus = Booked | Selected | Available

  /** `getSeatStatus`: booked takes priority over selected. */
  function GetSeatStatus(seat: Seat): (status: SeatStatus)
    ensures status == Booked <==> seat.isBooked
    ensures status == Selected <==> !seat.isBooked && seat.isSelected
    ensures status == Available <==> !seat.isBooked && !seat.isSelected
  {
    if seat.isBooked then Booked
    else if seat.isSelected then Selected
    else Available
  }

  // ---------------------------------------------------------------------------
  // Selection and tabs

  /** Component state: the ordered selection and the visible section tab. */
  datatype Picker = Picker(selected: seq<string>, current: SectionKey)

  const InitialPicker: Picker := Picker([], Vip)

  /** `handleSeatClick(seatId, isBooked)`: a booked seat is ignored; otherwise
      the id is removed if selected and appended at the end if not. */
  function HandleSeatClick(selected: seq<string>, seatId: string, isBooked: bool): (r: seq<string>)
    ensures isBooked ==> r == selected
    ensures !isBooked ==> (seatId in r <==> seatId !in selected)
    ensures !isBooked && seatId !in selected ==> r == selected + [seatId]
    ensures forall other :: other != seatId ==> Count(r, other) == Count(selected, other)
    ensures NoDup(selected) ==> NoDup(r)
  {
    if isBooked then selected else Toggle(selected, seatId)
  }

  function ClickSeat(p: Picker, seat: Seat): Picker {
    p.(selected := HandleSeatClick(p.selected, seat.id, seat.isBooked))
  }

  /** A tab click: only the visible section changes. */
  function SelectSection(p: Picker, key: SectionKey): (r: Picker)
    ensures r.selected == p.selected
    ensures r.current == key
  {
    p.(current := key)
  }

  /** Clicking an absent, unbooked seat twice restores the exact selection. */
  lemma SeatClickTwice(selected: seq<string>, seatId: string)
    requires seatId !in selected
    ensures HandleSeatClick(HandleSeatClick(selected, seatId, false), seatId, false) == selected
  {
    ToggleTwice(selected, seatId);
  }

  /** The selection after a sequence of clicks on seats. */
  function ClickAll(selected: seq<string>, clicks: seq<Seat>): seq<string>
    decreases |clicks|
  {
    if clicks == [] then selected
    else ClickAll(HandleSeatClick(selected, clicks[0].id, clicks[0].isBooked), clicks[1..])
  }

  /** Every clicked seat carries the booked flag of its id, as layout seats do. */
  predicate BookedFlagsConsistent(clicks: seq<Seat>) {
    forall i :: 0 <= i < |clicks| ==> (clicks[i].isBooked <==> clicks[i].id in AllBookedIds)
  }

  /** A duplicate-free selection without booked ids stays so under any clicks
      on seats whose booked flags follow the booked sets. */
  lemma {:induction false} SelectionInvariant(selected: seq<string>, clicks: seq<Seat>)
    requires BookedFlagsConsistent(clicks)
    requires NoDup(selected)
    requires forall id :: id in selected ==> id !in AllBookedIds
    ensures NoDup(ClickAll(selected, clicks))
    ensures forall id :: id in ClickAll(selected, clicks) ==> id !in AllBookedIds
    decreases |clicks|
  {
    if clicks != [] {
      var next := HandleSeatClick(selected, clicks[0].id, clicks[0].isBooked);
      forall id | id in next ensures id !in AllBookedIds {
        if id != clicks[0].id {
          assert Count(next, id) == Count(selected, id);
        }
      }
      assert BookedFlagsConsistent(clicks[1..]) by {
        forall i | 0 <= i < |clicks[1..]|
          ensures clicks[1..][i].isBooked <==> clicks[1..][i].id in AllBookedIds
        {
          assert clicks[1..][i] == clicks[i + 1];
        }
      }
      SelectionInvariant(next, clicks[1..]);
    }
  }

  /** Number of clicks on an unbooked seat with id `id`. */
  function UnbookedClicks(clicks: seq<Seat>, id: string): nat {
    if clicks == [] then 0
    else (if clicks[0].id == id && !clicks[0].isBooked then 1 else 0) + UnbookedClicks(clicks[1..], id)
  }

  /** One click flips the membership of the clicked id if the seat is
      unbooked, and of no other id. */
  lemma ClickMembership(selected: seq<string>, c: Seat, id: string)
    ensures id in HandleSeatClick(selected, c.id, c.isBooked) <==>
      (if id == c.id && !c.isBooked then id !in selected else id in selected)
  {
    var next := HandleSeatClick(selected, c.id, c.isBooked);
    if id != c.id {
      assert Count(next, id) == Count(selected, id);
    }
  }

  lemma OddSucc(k: nat)
    ensures (k + 1) % 2 == 1 <==> k % 2 != 1
  {
  }

  /** Parity: an id is selected after a sequence of clicks iff it was selected
      before and was clicked (while unbooked) an even number of times, or it
      was not and was clicked an odd number of times. */
  lemma {:induction false} ClickParity(selected: seq<string>, clicks: seq<Seat>, id: string)
    ensures id in ClickAll(selected, clicks) <==> (id in selected) != (UnbookedClicks(clicks, id) % 2 == 1)
    decreases |clicks|
  {
    if clicks != [] {
      var c := clicks[0];
      var next := HandleSeatClick(selected, c.id, c.isBooked);
      var k := UnbookedClicks(clicks[1..], id);
      var flips := id == c.id && !c.isBooked;
      var wasIn, nowIn := id in selected, id in next;
      assert nowIn == (if flips then !wasIn else wasIn) by {
        ClickMembership(selected, c, id);
      }
      ClickParity(next, clicks[1..], id);
      assert UnbookedClicks(clicks, id) == if flips then k + 1 else k;
      OddSucc(k);
    }
  }

  /** Starting from the empty selection, an id is selected iff it was clicked
      an odd number of times while unbooked. */
  lemma ClickParityFromEmpty(clicks: seq<Seat>, id: string)
    ensures id in ClickAll([], clicks) <==> UnbookedClicks(clicks, id) % 2 == 1
  {
    ClickParity([], clicks, id);
  }
}

=== FILE: session.dfy ===
/** The signed-in user as the pages read it: an id and a role string
    (`user`, `vendor`, `organizer`, `admin`, or anything else the profile
    row holds). No user is `None`. */
module Session {
  import opened Lists

  datatype User = User(id: string, role: string)

  predicate HasRole(user: Option<User>, role: string) {
    user.Some? && user.value.role == role
  }
}

=== FILE: text.dfy ===
/** The string operations the pages rely on: decimal rendering of a
    non-negative integer (`Number.prototype.toString()`), single characters from
    a UTF-16 code (`String.fromCharCode`), and `String.prototype.startsWith`. */
module Text {

  predicate IsDigit(c: char) {
    '0' <= c <= '9'
  }

  function DigitChar(d: nat): (c: char)
    requires d < 10
    ensures IsDigit(c)
    ensures c as int - '0' as int == d
  {
    ('0' as int + d) as char
  }

  /** Decimal digits of `n` with no leading zero: what `n.toString()` and a
      template literal produce for a non-negative integer. */
  function NatToString(n: nat): (s: string)
    ensures 1 <= |s|
    ensures forall i :: 0 <= i < |s| ==> IsDigit(s[i])
    ensures |s| == 1 <==> n < 10
    ensures s[0] == '0' ==> n == 0
  {
    if n < 10 then [DigitChar(n)] else NatToString(n / 10) + [DigitChar(n % 10)]
  }

  /** The number a string of decimal digits denotes (most significant first). */
  function DigitsValue(s: string): nat
    requires forall i :: 0 <= i < |s| ==> IsDigit(s[i])
  {
    if s == [] then 0
    else
      assert IsDigit(s[|s| - 1]);
      DigitsValue(s[..|s| - 1]) * 10 + (s[|s| - 1] as int - '0' as int)
  }

  /** Reading the rendered digits back gives the number again. */
  lemma {:induction false} DigitsValueOfNatToString(n: nat)
    ensures DigitsValue(NatToString(n)) == n
  {
    if n >= 10 {
      var s := NatToString(n);
      assert s[..|s| - 1] == NatToString(n / 10);
      DigitsValueOfNatToString(n / 10);
    }
  }

  /** Distinct numbers render as distinct strings, so a rendered id is a key. */
  lemma NatToStringInjective(a: nat, b: nat)
    ensures NatToString(a) == NatToString(b) <==> a == b
  {
    DigitsValueOfNatToString(a);
    DigitsValueOfNatToString(b);
  }

  /** `String.fromCharCode(code)` for a code below the surrogate range. */
  function CharFromCode(code: nat): (c: char)
    requires code < 0xD800
    ensures c as int == code
  {
    code as char
  }

  predicate StartsWith(s: string, prefix: string) {
    |prefix| <= |s| && s[..|prefix|] == prefix
  }
}

=== FILE: ticket_cart.dfy ===
/** The ticket-quantity cart of the event page: a string-keyed object from a
    ticket type's id (rendered as a decimal string) to the chosen quantity,
    the -/+ buttons that clamp the quantity, the total, and the booking
    summary. The object is modelled as its entries in insertion order. */
module TicketCart {
  import opened Lists
  import opened Text

  datatype TicketType = TicketType(id: nat, name: string, price: nat, available: nat)

  /** The key a ticket type's quantity is stored and looked up under
      (`ticket.id.toString()`). */
  function Key(t: TicketType): string {
    NatToString(t.id)
  }

  /** The three ticket types the page offers. */
  const EventTicketTypes: seq<TicketType> := [
    TicketType(1, "General Admission", 5000, 500),
    TicketType(2, "VIP Pass", 15000, 100),
    TicketType(3, "Table for 4", 40000, 20)
  ]

  predicate DistinctTicketIds(tickets: seq<TicketType>) {
    forall i, j :: 0 <= i < j < |tickets| ==> tickets[i].id != tickets[j].id
  }

  lemma EventTicketTypesDistinct()
    ensures DistinctTicketIds(EventTicketTypes)
  {
  }

  datatype Entry = Entry(key: string, quantity: int)

  /** `selectedTickets`: the entries of the object, oldest key first. */
  type Cart = seq<Entry>

  predicate UniqueKeys(cart: Cart) {
    forall i, j :: 0 <= i < j < |cart| ==> cart[i].key != cart[j].key
  }

  /** Property read `selectedTickets[key]`: the quantity under `key`, if any. */
  function Lookup(cart: Cart, key: string): Option<int> {
    if cart == [] then None
    else if cart[0].key == key then Some(cart[0].quantity)
    else Lookup(cart[1..], key)
  }

  /** A read finds nothing exactly when no entry has the key, and otherwise
      returns the quantity of an entry with that key. */
  lemma {:induction false} LookupSpec(cart: Cart, key: string)
    ensures Lookup(cart, key).None? <==> forall i :: 0 <= i < |cart| ==> cart[i].key != key
    ensures Lookup(cart, key).Some? ==> exists i :: 0 <= i < |cart| && cart[i] == Entry(key, Lookup(cart, key).value)
  {
    if cart != [] && cart[0].key != key {
      LookupSpec(cart[1..], key);
      assert forall i :: 0 <= i < |cart[1..]| ==> cart[1..][i] == cart[i + 1];
      if Lookup(cart, key).Some? {
        var i :| 0 <= i < |cart[1..]| && cart[1..][i] == Entry(key, Lookup(cart, key).value);
        assert cart[i + 1] == cart[1..][i];
      }
    }
  }

  /** `selectedTickets[key] || 0`: a missing key reads as quantity 0. */
  function Quantity(cart: Cart, key: string): int {
    match Lookup(cart, key)
    case None => 0
    case Some(q) => q
  }

  /** `handleTicketChange(key, q)`: the object spread with `[key]: q` — an
      existing key keeps its place and takes the new value, a new key is
      added at the end. */
  function SetQuantity(cart: Cart, key: string, q: int): (r: Cart)
    ensures |r| == if Lookup(cart, key).Some? then |cart| else |cart| + 1
    ensures Lookup(r, key) == Some(q)
    ensures forall k :: k != key ==> Lookup(r, k) == Lookup(cart, k)
    ensures Lookup(cart, key).None? ==> r == cart + [Entry(key, q)]
  {
    if cart == [] then [Entry(key, q)]
    else if cart[0].key == key then [Entry(key, q)] + cart[1..]
    else
      assert forall i :: 0 <= i < |cart[1..]| ==> cart[1..][i] == cart[i + 1];
      [cart[0]] + SetQuantity(cart[1..], key, q)
  }

  /** Position by position, the entries after `handleTicketChange`: each is
      the old entry or the new `(key, q)`, and keys keep their places. */
  lemma {:induction false} SetQuantityEntries(cart: Cart, key: string, q: int)
    ensures var r := SetQuantity(cart, key, q);
      forall i :: 0 <= i < |r| ==> r[i] == Entry(key, q) || (i < |cart| && r[i] == cart[i])
    ensures var r := SetQuantity(cart, key, q);
      forall i :: 0 <= i < |cart| ==> i < |r| && r[i].key == cart[i].key
  {
    if cart != [] && cart[0].key != key {
      var rest := cart[1..];
      SetQuantityEntries(rest, key, q);
      assert SetQuantity(cart, key, q) == [cart[0]] + SetQuantity(rest, key, q);
      assert forall i :: 0 <= i < |rest| ==> rest[i] == cart[i + 1];
    }
  }

  /** `handleTicketChange` never duplicates a key. */
  lemma {:induction false} SetQuantityUnique(cart: Cart, key: string, q: int)
    requires UniqueKeys(cart)
    ensures UniqueKeys(SetQuantity(cart, key, q))
  {
    if cart != [] && cart[0].key != key {
      var rest := cart[1..];
      assert forall i :: 0 <= i < |rest| ==> rest[i] == cart[i + 1];
      SetQuantityUnique(rest, key, q);
      LookupSpec(rest, cart[0].key);
      LookupSpec(SetQuantity(rest, key, q), cart[0].key);
      assert SetQuantity(cart, key, q) == [cart[0]] + SetQuantity(rest, key, q);
    }
  }

  /** The first listed ticket type whose key is `key` (`ticketTypes.find`). */
  function FindTicket(tickets: seq<TicketType>, key: string): Option<TicketType> {
    if tickets == [] then None
    else if Key(tickets[0]) == key then Some(tickets[0])
    else FindTicket(tickets[1..], key)
  }

  /** `find` returns a listed type with the key, or nothing when no listed
      type has it. */
  lemma {:induction false} FindTicketSpec(tickets: seq<TicketType>, key: string)
    ensures FindTicket(tickets, key).Some? ==>
      FindTicket(tickets, key).value in tickets && Key(FindTicket(tickets, key).value) == key
    ensures FindTicket(tickets, key).None? <==> forall t :: t in tickets ==> Key(t) != key
  {
    if tickets != [] && Key(tickets[0]) != key {
      FindTicketSpec(tickets[1..], key);
    }
  }

  /** With distinct ids, the ticket found under a listed type's key is that type. */
  lemma FindListed(tickets: seq<TicketType>, t: TicketType)
    requires DistinctTicketIds(tickets)
    requires t in tickets
    ensures FindTicket(tickets, Key(t)) == Some(t)
  {
    var i :| 0 <= i < |tickets| && tickets[i] == t;
    FindListedAt(tickets, i);
  }

  lemma {:induction false} FindListedAt(tickets: seq<TicketType>, i: nat)
    requires DistinctTicketIds(tickets)
    requires i < |tickets|
    ensures FindTicket(tickets, Key(tickets[i])) == Some(tickets[i])
  {
    if i == 0 {
    } else {
      NatToStringInjective(tickets[0].id, tickets[i].id);
      assert tickets[1..][i - 1] == tickets[i];
      FindListedAt(tickets[1..], i - 1);
    }
  }

  /** What one entry adds to the total: price × quantity for a known ticket
      type, 0 for a key that matches none. */
  function LineAmount(tickets: seq<TicketType>, e: Entry): int {
    match FindTicket(tickets, e.key)
    case None => 0
    case Some(t) => t.price * e.quantity
  }

  /** `calculateTotal`: the sum of the entries' line amounts. */
  function CalculateTotal(cart: Cart, tickets: seq<TicketType>): int {
    if cart == [] then 0
    else LineAmount(tickets, cart[0]) + CalculateTotal(cart[1..], tickets)
  }

  /** The empty cart costs nothing, non-negative quantities never give a
      negative total, and keys matching no ticket type add nothing. */
  lemma {:induction false} CalculateTotalBounds(cart: Cart, tickets: seq<TicketType>)
    ensures cart == [] ==> CalculateTotal(cart, tickets) == 0
    ensures (forall i :: 0 <= i < |cart| ==> cart[i].quantity >= 0) ==> CalculateTotal(cart, tickets) >= 0
    ensures (forall i :: 0 <= i < |cart| ==> FindTicket(tickets, cart[i].key).None?) ==> CalculateTotal(cart, tickets) == 0
  {
    if cart != [] {
      CalculateTotalBounds(cart[1..], tickets);
      assert forall i :: 0 <= i < |cart[1..]| ==> cart[1..][i] == cart[i + 1];
      if cart[0].quantity >= 0 {
        match FindTicket(tickets, cart[0].key)
        case None =>
        case Some(t) => assert t.price * cart[0].quantity >= 0;
      }
    }
  }

  /** Reference total: over the ticket types, price × the quantity chosen. */
  function TypeTotal(tickets: seq<TicketType>, cart: Cart): int {
    if tickets == [] then 0
    else tickets[0].price * Quantity(cart, Key(tickets[0])) + TypeTotal(tickets[1..], cart)
  }

  /** Setting one quantity moves the total by exactly the difference of that
      entry's line amounts. */
  lemma {:induction false} TotalAfterSetQuantity(cart: Cart, tickets: seq<TicketType>, key: string, q: int)
    ensures CalculateTotal(SetQuantity(cart, key, q), tickets)
      == CalculateTotal(cart, tickets)
         - LineAmount(tickets, Entry(key, Quantity(cart, key)))
         + LineAmount(tickets, Entry(key, q))
  {
    if cart != [] && cart[0].key != key {
      var r := SetQuantity(cart, key, q);
      assert r[1..] == SetQuantity(cart[1..], key, q);
      TotalAfterSetQuantity(cart[1..], tickets, key, q);
    } else if cart != [] {
      assert SetQuantity(cart, key, q)[1..] == cart[1..];
    }
  }

  /** Adding an entry in front whose key is new adds its line amount to the
      reference total. */
  lemma {:induction false} TypeTotalCons(tickets: seq<TicketType>, e: Entry, rest: Cart)
    requires DistinctTicketIds(tickets)
    requires Lookup(rest, e.key).None?
    ensures TypeTotal(tickets, [e] + rest) == TypeTotal(tickets, rest) + LineAmount(tickets, e)
  {
    if tickets != [] {
      var t := tickets[0];
      assert Quantity(rest, e.key) == 0;
      TypeTotalCons(tickets[1..], e, rest);
      if Key(t) == e.key {
        forall u | u in tickets[1..] ensures Key(u) != e.key {
          var j :| 0 <= j < |tickets[1..]| && tickets[1..][j] == u;
          assert tickets[j + 1] == u;
          NatToStringInjective(t.id, u.id);
        }
        FindTicketSpec(tickets[1..], e.key);
      }
    }
  }

  /** The total equals the per-type reference sum: unknown keys contribute
      nothing and each ticket type counts once with its chosen quantity. */
  lemma {:induction false} TotalIsPerTypeSum(cart: Cart, tickets: seq<TicketType>)
    requires UniqueKeys(cart)
    requires DistinctTicketIds(tickets)
    ensures CalculateTotal(cart, tickets) == TypeTotal(tickets, cart)
  {
    if cart == [] {
      TypeTotalEmpty(tickets);
    } else {
      var rest := cart[1..];
      assert UniqueKeys(rest) by {
        assert forall i :: 0 <= i < |rest| ==> rest[i] == cart[i + 1];
      }
      assert Lookup(rest, cart[0].key).None? by {
        assert forall i :: 0 <= i < |rest| ==> rest[i] == cart[i + 1];
        LookupSpec(rest, cart[0].key);
      }
      TotalIsPerTypeSum(rest, tickets);
      assert cart == [cart[0]] + rest;
      TypeTotalCons(tickets, cart[0], rest);
    }
  }

  lemma {:induction false} TypeTotalEmpty(tickets: seq<TicketType>)
    ensures TypeTotal(tickets, []) == 0
  {
    if tickets != [] {
      TypeTotalEmpty(tickets[1..]);
    }
  }

  /** A press on a ticket row's "-" or "+" button. */
  datatype Click = Minus(ticket: TicketType) | Plus(ticket: TicketType)

  /** The quantity a button hands to `handleTicketChange`: "-" passes
      `max(0, current - 1)` and "+" passes `min(available, current + 1)`. */
  function Clamped(cart: Cart, c: Click): int {
    var current := Quantity(cart, Key(c.ticket));
    match c
    case Minus(_) => Max(0, current - 1)
    case Plus(t) => Min(t.available, current + 1)
  }

  function Press(cart: Cart, c: Click): Cart {
    SetQuantity(cart, Key(c.ticket), Clamped(cart, c))
  }

  /** Only the pressed ticket's quantity moves: "-" lowers it by one but not
      below 0, "+" raises it by one but not above the stock. */
  lemma PressClamps(cart: Cart, c: Click)
    ensures c.Minus? ==> Quantity(Press(cart, c), Key(c.ticket)) == Max(0, Quantity(cart, Key(c.ticket)) - 1)
    ensures c.Plus? ==> Quantity(Press(cart, c), Key(c.ticket)) == Min(c.ticket.available, Quantity(cart, Key(c.ticket)) + 1)
    ensures forall other :: other != Key(c.ticket) ==> Lookup(Press(cart, c), other) == Lookup(cart, other)
  {
  }

  lemma PressSets(cart: Cart, c: Click, tickets: seq<TicketType>)
    ensures CalculateTotal(Press(cart, c), tickets)
      == CalculateTotal(SetQuantity(cart, Key(c.ticket), Clamped(cart, c)), tickets)
  {
  }

  lemma LineAmountListed(tickets: seq<TicketType>, t: TicketType, q: int)
    requires FindTicket(tickets, Key(t)) == Some(t)
    ensures LineAmount(tickets, Entry(Key(t), q)) == t.price * q
  {
  }

  lemma MulSucc(p: int, q: int)
    ensures p * (q + 1) == p * q + p
  {
  }

  /** Pressing "+" on a listed ticket adds its price to the total while the
      chosen quantity is below the stock, and nothing once it is sold out. */
  lemma PlusTotal(cart: Cart, tickets: seq<TicketType>, t: TicketType)
    requires DistinctTicketIds(tickets)
    requires t in tickets
    requires 0 <= Quantity(cart, Key(t)) <= t.available
    ensures CalculateTotal(Press(cart, Plus(t)), tickets)
      == CalculateTotal(cart, tickets) + (if Quantity(cart, Key(t)) < t.available then t.price else 0)
  {
    var q := Quantity(cart, Key(t));
    var q' := Clamped(cart, Plus(t));
    PressSets(cart, Plus(t), tickets);
    FindListed(tickets, t);
    TotalAfterSetQuantity(cart, tickets, Key(t), q');
    LineAmountListed(tickets, t, q);
    LineAmountListed(tickets, t, q');
    if q < t.available {
      assert q' == q + 1;
      MulSucc(t.price, q);
    } else {
      assert q' == q;
    }
  }

  /** Pressing "-" on a listed ticket takes its price off the total when the
      chosen quantity is positive, and nothing at 0. */
  lemma MinusTotal(cart: Cart, tickets: seq<TicketType>, t: TicketType)
    requires DistinctTicketIds(tickets)
    requires t in tickets
    requires 0 <= Quantity(cart, Key(t))
    ensures CalculateTotal(Press(cart, Minus(t)), tickets)
      == CalculateTotal(cart, tickets) - (if Quantity(cart, Key(t)) > 0 then t.price else 0)
  {
    var q := Quantity(cart, Key(t));
    var q' := Clamped(cart, Minus(t));
    PressSets(cart, Minus(t), tickets);
    FindListed(tickets, t);
    TotalAfterSetQuantity(cart, tickets, Key(t), q');
    LineAmountListed(tickets, t, q);
    LineAmountListed(tickets, t, q');
    if q > 0 {
      assert q == q' + 1;
      MulSucc(t.price, q');
    } else {
      assert q' == q;
    }
  }

  /** The cart after a sequence of presses. */
  function PressAll(cart: Cart, clicks: seq<Click>): Cart
    decreases |clicks|
  {
    if clicks == [] then cart else PressAll(Press(cart, clicks[0]), clicks[1..])
  }

  /** No quantity is negative and no listed ticket type has more chosen than
      its stock. */
  predicate WithinStock(cart: Cart, tickets: seq<TicketType>) {
    (forall i :: 0 <= i < |cart| ==> cart[i].quantity >= 0)
    && (forall t :: t in tickets ==> Quantity(cart, Key(t)) <= t.available)
  }

  lemma EmptyWithinStock(tickets: seq<TicketType>)
    ensures WithinStock([], tickets)
  {
  }

  lemma PressWithinStock(cart: Cart, tickets: seq<TicketType>, c: Click)
    requires DistinctTicketIds(tickets)
    requires c.ticket in tickets
    requires WithinStock(cart, tickets)
    ensures WithinStock(Press(cart, c), tickets)
  {
    var t := c.ticket;
    var q' := Clamped(cart, c);
    var r := SetQuantity(cart, Key(t), q');
    assert Press(cart, c) == r;
    assert 0 <= q' by {
      assert 0 <= Quantity(cart, Key(t)) by {
        LookupSpec(cart, Key(t));
      }
    }
    SetQuantityEntries(cart, Key(t), q');
    forall u | u in tickets ensures Quantity(r, Key(u)) <= u.available {
      if Key(u) == Key(t) {
        NatToStringInjective(u.id, t.id);
        var i :| 0 <= i < |tickets| && tickets[i] == u;
        var j :| 0 <= j < |tickets| && tickets[j] == t;
        assert i == j;
      }
    }
  }

  /** Any sequence of -/+ presses on the listed ticket types keeps every
      quantity within 0..stock. */
  lemma {:induction false} PressAllWithinStock(cart: Cart, tickets: seq<TicketType>, clicks: seq<Click>)
    requires DistinctTicketIds(tickets)
    requires forall i :: 0 <= i < |clicks| ==> clicks[i].ticket in tickets
    requires WithinStock(cart, tickets)
    ensures WithinStock(PressAll(cart, clicks), tickets)
    decreases |clicks|
  {
    if clicks != [] {
      PressWithinStock(cart, tickets, clicks[0]);
      assert forall i :: 0 <= i < |clicks[1..]| ==> clicks[1..][i] == clicks[i + 1];
      PressAllWithinStock(Press(cart, clicks[0]), tickets, clicks[1..]);
    }
  }

  /** `n` presses of the same button. */
  function Repeat(c: Click, n: nat): (r: seq<Click>)
    ensures |r| == n
  {
    if n == 0 then [] else [c] + Repeat(c, n - 1)
  }

  /** Pressing "+" `n` times moves a quantity `q` to `min(available, q + n)`. */
  lemma {:induction false} RepeatedPlus(cart: Cart, t: TicketType, n: nat)
    requires 0 <= Quantity(cart, Key(t)) <= t.available
    ensures Quantity(PressAll(cart, Repeat(Plus(t), n)), Key(t)) == Min(t.available, Quantity(cart, Key(t)) + n)
    decreases n
  {
    if n > 0 {
      PressClamps(cart, Plus(t));
      assert Repeat(Plus(t), n)[1..] == Repeat(Plus(t), n - 1);
      RepeatedPlus(Press(cart, Plus(t)), t, n - 1);
    }
  }

  /** Pressing "-" `n` times moves a quantity `q` to `max(0, q - n)`. */
  lemma {:induction false} RepeatedMinus(cart: Cart, t: TicketType, n: nat)
    requires 0 <= Quantity(cart, Key(t))
    ensures Quantity(PressAll(cart, Repeat(Minus(t), n)), Key(t)) == Max(0, Quantity(cart, Key(t)) - n)
    decreases n
  {
    if n > 0 {
      PressClamps(cart, Minus(t));
      assert Repeat(Minus(t), n)[1..] == Repeat(Minus(t), n - 1);
      RepeatedMinus(Press(cart, Minus(t)), t, n - 1);
    }
  }

  /** One line of the booking summary. */
  datatype SummaryLine = SummaryLine(name: string, quantity: int, amount: int)

  /** The booking summary: entries with a positive quantity, in cart order,
      each naming its ticket type and showing price × quantity; an entry
      whose key names no ticket type renders nothing. */
  function SummaryLines(cart: Cart, tickets: seq<TicketType>): seq<SummaryLine> {
    if cart == [] then []
    else
      var rest := SummaryLines(cart[1..], tickets);
      if cart[0].quantity <= 0 then rest
      else match FindTicket(tickets, cart[0].key)
        case None => rest
        case Some(t) => [SummaryLine(t.name, cart[0].quantity, t.price * cart[0].quantity)] + rest
  }

  function SummaryAmount(lines: seq<SummaryLine>): int {
    if lines == [] then 0 else lines[0].amount + SummaryAmount(lines[1..])
  }

  /** Every summary line has a positive quantity, at most one per entry, and
      over a cart without negative quantities the lines add up to the total:
      zero-quantity entries change nothing. */
  lemma {:induction false} SummaryMatchesTotal(cart: Cart, tickets: seq<TicketType>)
    requires forall i :: 0 <= i < |cart| ==> cart[i].quantity >= 0
    ensures SummaryAmount(SummaryLines(cart, tickets)) == CalculateTotal(cart, tickets)
    ensures |SummaryLines(cart, tickets)| <= |cart|
    ensures forall l :: l in SummaryLines(cart, tickets) ==> l.quantity > 0
  {
    if cart != [] {
      assert forall i :: 0 <= i < |cart[1..]| ==> cart[1..][i] == cart[i + 1];
      SummaryMatchesTotal(cart[1..], tickets);
    }
  }

  /** Each summary line names a listed ticket type and shows its price times
      the line's quantity, and every entry with a positive quantity whose
      key names a ticket type has its line. */
  lemma {:induction false} SummaryLinesSpec(cart: Cart, tickets: seq<TicketType>)
    ensures forall l :: l in SummaryLines(cart, tickets) ==>
      exists t :: t in tickets && l.name == t.name && l.amount == t.price * l.quantity
    ensures forall i :: 0 <= i < |cart| && cart[i].quantity > 0 && FindTicket(tickets, cart[i].key).Some? ==>
      SummaryLine(FindTicket(tickets, cart[i].key).value.name, cart[i].quantity,
        FindTicket(tickets, cart[i].key).value.price * cart[i].quantity) in SummaryLines(cart, tickets)
  {
    if cart != [] {
      SummaryLinesSpec(cart[1..], tickets);
      FindTicketSpec(tickets, cart[0].key);
      var lines := SummaryLines(cart, tickets);
      var rest := SummaryLines(cart[1..], tickets);
      assert forall l :: l in rest ==> l in lines;
      forall i | 1 <= i < |cart| && cart[i].quantity > 0 && FindTicket(tickets, cart[i].key).Some?
        ensures SummaryLine(FindTicket(tickets, cart[i].key).value.name, cart[i].quantity,
          FindTicket(tickets, cart[i].key).value.price * cart[i].quantity) in lines
      {
        assert cart[i] == cart[1..][i - 1];
      }
    }
  }

  /** The summary block is shown when some entry has a positive quantity
      (`filter(q > 0).length > 0`). */
  predicate SummaryShown(cart: Cart) {
    |Filter(cart, (e: Entry) => e.quantity > 0)| > 0
  }

  lemma SummaryShownIff(cart: Cart)
    ensures SummaryShown(cart) <==> exists i :: 0 <= i < |cart| && cart[i].quantity > 0
  {
    var f := Filter(cart, (e: Entry) => e.quantity > 0);
    if |f| > 0 {
      assert f[0] in f;
    }
    if i :| 0 <= i < |cart| && cart[i].quantity > 0 {
      assert cart[i] in f;
    }
  }
}

=== FILE: vendor.dfy ===
/** The vendor application page: a form record edited one field at a time, a
    membership toggle over the chosen event types, and a four-step wizard
    whose step counter moves by the Previous/Next buttons and whose last
    step is reached only by submitting the form on step 3. */
module VendorWizard {
  import opened Lists

  /** The top-level text fields bound to `handleInputChange`. */
  datatype FormField = BusinessName | Email | Phone | Address | Description

  /** The fields of `bankDetails` that have an input bound to
      `handleBankDetailsChange`. The Stellar address has no input on the
      page, so no action writes it. */
  datatype BankField = AccountName | AccountNumber | BankName

  datatype BankDetails = BankDetails(accountName: string, accountNumber: string, bankName: string, stellarAddress: string)

  /** The form state. The document slots are never written by the page and
      are not represented. */
  datatype VendorForm = VendorForm(
    businessName: string,
    email: string,
    phone: string,
    address: string,
    eventTypes: seq<string>,
    description: string,
    bankDetails: BankDetails)

  const InitialForm := VendorForm("", "", "", "", [], "", BankDetails("", "", "", ""))

  /** The ten event types offered as toggle buttons on step 2. */
  const EventTypeOptions: seq<string> := [
    "Music & Concerts", "Tech & Conferences", "Awards & Nominations", "Food & Drink",
    "Sports & Fitness", "Arts & Culture", "Business & Networking", "Educational",
    "Charity & Fundraising", "Other"
  ]

  /** Reads a top-level text field. */
  function Field(form: VendorForm, f: FormField): string {
    match f
    case BusinessName => form.businessName
    case Email => form.email
    case Phone => form.phone
    case Address => form.address
    case Description => form.description
  }

  /** Reads a bank-details field. */
  function Bank(b: BankDetails, f: BankField): string {
    match f
    case AccountName => b.accountName
    case AccountNumber => b.accountNumber
    case BankName => b.bankName
  }

  /** `handleInputChange`: the form spread with `[name]: value`. */
  function HandleInputChange(form: VendorForm, f: FormField, value: string): (r: VendorForm)
    ensures Field(r, f) == value
    ensures forall g :: g != f ==> Field(r, g) == Field(form, g)
    ensures r.eventTypes == form.eventTypes && r.bankDetails == form.bankDetails
  {
    match f
    case BusinessName => form.(businessName := value)
    case Email => form.(email := value)
    case Phone => form.(phone := value)
    case Address => form.(address := value)
    case Description => form.(description := value)
  }

  /** `handleBankDetailsChange`: `bankDetails` spread with `[name]: value`. */
  function HandleBankDetailsChange(form: VendorForm, f: BankField, value: string): (r: VendorForm)
    ensures Bank(r.bankDetails, f) == value
    ensures forall g :: g != f ==> Bank(r.bankDetails, g) == Bank(form.bankDetails, g)
    ensures r.bankDetails.stellarAddress == form.bankDetails.stellarAddress
    ensures forall g :: Field(r, g) == Field(form, g)
    ensures r.eventTypes == form.eventTypes
  {
    var b := form.bankDetails;
    var b' := match f
      case AccountName => b.(accountName := value)
      case AccountNumber => b.(accountNumber := value)
      case BankName => b.(bankName := value);
    form.(bankDetails := b')
  }

  /** `handleEventTypeToggle`: drop the type if chosen, otherwise append it. */
  function HandleEventTypeToggle(form: VendorForm, eventType: string): (r: VendorForm)
    ensures eventType in r.eventTypes <==> eventType !in form.eventTypes
    ensures forall t :: t != eventType ==> (t in r.eventTypes <==> t in form.eventTypes)
    ensures eventType !in form.eventTypes ==> r.eventTypes == form.eventTypes + [eventType]
    ensures NoDup(form.eventTypes) ==> NoDup(r.eventTypes)
    ensures forall g :: Field(r, g) == Field(form, g)
    ensures r.bankDetails == form.bankDetails
  {
    var r := form.(eventTypes := Toggle(form.eventTypes, eventType));
    forall t | t != eventType ensures t in r.eventTypes <==> t in form.eventTypes {
      assert Count(r.eventTypes, t) == Count(form.eventTypes, t);
    }
    r
  }

  /** Toggling a type twice restores its membership, and restores the exact
      list when it was not chosen before. */
  lemma EventTypeToggleTwice(form: VendorForm, eventType: string)
    ensures var twice := HandleEventTypeToggle(HandleEventTypeToggle(form, eventType), eventType);
      eventType in twice.eventTypes <==> eventType in form.eventTypes
    ensures eventType !in form.eventTypes ==>
      HandleEventTypeToggle(HandleEventTypeToggle(form, eventType), eventType) == form
  {
    ToggleTwice(form.eventTypes, eventType);
  }

  /** The wizard: the current step (1 to 4) and the form. */
  datatype Wizard = Wizard(step: int, form: VendorForm)

  const Initial := Wizard(1, InitialForm)

  /** What the user can do. `Next` is the right-hand button: on step 3 it is
      the form's submit button. `termsChecked` is the state of the terms box,
      which the page keeps in the DOM only. */
  datatype Action =
    | Previous
    | Next(termsChecked: bool)
    | EditField(field: FormField, value: string)
    | EditBank(bankField: BankField, value: string)
    | ToggleType(eventType: string)

  /** The browser's `required` check on submit: the inputs on step 3 that
      carry `required` are the three bank fields and the terms box. */
  predicate SubmitValid(form: VendorForm, termsChecked: bool) {
    form.bankDetails.accountName != "" && form.bankDetails.accountNumber != ""
    && form.bankDetails.bankName != "" && termsChecked
  }

  /** `handleSubmit`: sets step 4 once the browser lets the form submit. */
  function HandleSubmit(w: Wizard, termsChecked: bool): (r: Wizard)
    ensures r.form == w.form
    ensures r.step == 4 <==> w.step == 4 || SubmitValid(w.form, termsChecked)
  {
    if SubmitValid(w.form, termsChecked) then w.(step := 4) else w
  }

  /** One user action. The navigation buttons are rendered only below step 4;
      an input or toggle acts only while its step is shown. */
  function Apply(w: Wizard, a: Action): Wizard {
    match a
    case Previous =>
      if w.step < 4 then w.(step := Max(1, w.step - 1)) else w
    case Next(terms) =>
      if w.step == 3 then HandleSubmit(w, terms)
      else if w.step < 4 then w.(step := Min(3, w.step + 1))
      else w
    case EditField(f, v) =>
      if w.step == 1 then w.(form := HandleInputChange(w.form, f, v)) else w
    case EditBank(f, v) =>
      if w.step == 3 then w.(form := HandleBankDetailsChange(w.form, f, v)) else w
    case ToggleType(t) =>
      if w.step == 2 then w.(form := HandleEventTypeToggle(w.form, t)) else w
  }

  function Run(w: Wizard, actions: seq<Action>): Wizard
    decreases |actions|
  {
    if actions == [] then w else Run(Apply(w, actions[0]), actions[1..])
  }

  /** Previous never goes below step 1 and Next never past step 3; only a
      valid submit on step 3 reaches step 4, and step 4 accepts nothing. */
  lemma ApplyStep(w: Wizard, a: Action)
    requires 1 <= w.step <= 4
    ensures 1 <= Apply(w, a).step <= 4
    ensures -1 <= Apply(w, a).step - w.step <= 1
    ensures a == Previous && w.step < 4 ==> Apply(w, a).step == Max(1, w.step - 1)
    ensures a.Next? && w.step < 3 ==> Apply(w, a).step == Min(3, w.step + 1)
    ensures Apply(w, a).step == 4 && w.step != 4 ==>
      w.step == 3 && a.Next? && SubmitValid(w.form, a.termsChecked)
    ensures w.step == 4 ==> Apply(w, a) == w
  {
  }

  /** Any run keeps the step within 1..4, and a run that ends on step 4 has
      complete bank details. */
  lemma {:induction false} RunStep(w: Wizard, actions: seq<Action>)
    requires 1 <= w.step <= 4
    requires w.step == 4 ==> SubmitValid(w.form, true)
    ensures 1 <= Run(w, actions).step <= 4
    ensures Run(w, actions).step == 4 ==> SubmitValid(Run(w, actions).form, true)
    ensures w.step == 4 ==> Run(w, actions) == w
    decreases |actions|
  {
    if actions != [] {
      ApplyStep(w, actions[0]);
      RunStep(Apply(w, actions[0]), actions[1..]);
    }
  }

  /** From the start, step 4 is reached only with the bank fields filled. */
  lemma CompletedRunHasBankDetails(actions: seq<Action>)
    ensures 1 <= Run(Initial, actions).step <= 4
    ensures Run(Initial, actions).step == 4 ==>
      var b := Run(Initial, actions).form.bankDetails;
      b.accountName != "" && b.accountNumber != "" && b.bankName != ""
  {
    RunStep(Initial, actions);
  }

  /** Step 1's `required` fields are never checked: Next on step 1 is a plain
      button and the step-1 inputs are gone when the form is submitted. */
  lemma SubmitIgnoresBusinessFields()
    ensures var w := Run(Initial, [Next(false), Next(false),
        EditBank(AccountName, "A"), EditBank(AccountNumber, "1"), EditBank(BankName, "B"),
        Next(true)]);
      w.step == 4 && w.form.businessName == "" && w.form.email == ""
  {
  }

  /** How a step's circle in the progress bar is drawn. */
  datatype Indicator = Done | Active | Pending

  function StepIndicator(current: int, id: int): Indicator {
    if current > id then Done else if current == id then Active else Pending
  }

  /** The four steps of the progress bar. */
  const StepTitles: seq<string> := [
    "Business Information", "Event Details", "Payment & Documents", "Complete"
  ]

  /** `steps[currentStep - 1]?.title`. */
  function StepTitle(step: int): Option<string> {
    if 1 <= step <= |StepTitles| then Some(StepTitles[step - 1]) else None
  }

  /** Number of steps among 1..n drawn as completed. */
  function DoneCount(current: int, n: nat): nat {
    if n == 0 then 0 else DoneCount(current, n - 1) + (if StepIndicator(current, n) == Done then 1 else 0)
  }

  /** A step is drawn completed exactly when the wizard is past it, so the
      steps before the current one are the completed ones; the current step
      is the single active one and every step in 1..4 has a title. */
  lemma {:induction false} IndicatorCounts(current: int, n: nat)
    requires 1 <= current <= 4 && n <= 4
    ensures DoneCount(current, n) == Min(n, current - 1)
    ensures forall id :: 1 <= id <= 4 ==> (StepIndicator(current, id) == Done <==> id < current)
    ensures forall id :: 1 <= id <= 4 ==> (StepIndicator(current, id) == Active <==> id == current)
    ensures StepTitle(current).Some?
  {
    if n > 0 {
      IndicatorCounts(current, n - 1);
    }
  }
}
